=== FILE: README.md ===
# Expenses tracker: authentication layer and ledger service, modelled in Dafny

This project models the security layer of the expenses-tracker Spring
application, together with the small services around it:

- the **login filter**. It checks the content type, parses the JSON body, rejects blank
  credentials and consults the lockout ledger. It then hands the sanitised username
  to the authentication manager. Finally, the success and failure handlers update the
  ledger and shape the response;
- the **lockout ledger** itself: failure counts and lockout start times per
  identity, with a 5-attempt threshold and a 15-minute window;
- the **JWT utility**: access and refresh tokens, claim extraction, expiry,
  validation and the refresh-type test;
- the **request gate**, the per-request bearer-token filter, and the
  **refresh-token endpoint**;
- the user-details lookup, the blank-string helper, `ApiException` and the
  global exception handler, and the two `AuthenticationResult` classes;
- **registration** rules: username, password, password strength and the
  availability query;
- **ledgers**: the entity and its defaults, the three JPQL queries over an
  in-memory table, `save`, and the service's validation, duplicate-name
  detection, update and soft delete.

Everything is a pure function over immutable data. A component's state is an
argument and comes back in the result, so an operation returns the new state
together with its outcome. The clock is an explicit `now` in milliseconds. The
authentication manager (a password-hash check) is a parameter
`verify: (username, password) -> outcome`. Turning bearer text into a token is a
parameter `decode`. A token is its claims plus an integrity verdict: signed,
bad signature, or malformed. Java exceptions are values:

- `Result`/`Outcome` errors stand for thrown `ApiException`s and parser exceptions;
- `Crashed` or `NullPointer` stand for `NullPointerException`s that the source does not catch.

Java's `String.trim` (strips characters up to U+0020) and `Character.isWhitespace`
are modelled exactly. `String.length` counts UTF-16 code units, so a character
outside the Basic Multilingual Plane counts twice (`JavaText.JavaLength`).
Upper-to-lower case mapping covers ASCII only.

Modules: `Wrappers`, `JavaText`, `StringUtil`, `ApiErrors`, `ExceptionHandler`,
`AuthResults`, `UserLookup`, `Jwt`, `RequestGate`, `RefreshEndpoint`, `Lockout`,
`LoginFilter`, `LoginProperties`, `Registration`, `LedgerModel`, `LedgerDao`,
`LedgerService`.

### Behaviours of the code worth noting

- **Locked accounts keep counting.** A login for a locked account is still routed to
  the failure handler. That handler increments the count past 5 and re-stamps the
  lockout start, so every attempt while locked restarts the 15-minute window
  (`Lockout.FailureWhileLockedRestartsWindow`, `LoginProperties.LockedStep`). The
  count is not capped.
- **Pre-check failures answer 401, and a blank password is counted.**
  - Every pre-check failure (wrong content type, unreadable JSON, blank field) goes
    through the failure handler and answers 401.
  - A blank password with a usable username counts as a failed attempt for that
    username (`LoginProperties.BlankPasswordCounts`).
  - Content-type and JSON failures count against nobody, because the identity is
    `"unknown"`.
- **A missing field can crash.** A body without a `username` field, or with a
  non-blank username and no `password` field, dereferences null in the
  blank-string helper. The result is an uncaught `NullPointerException`
  (`LoginProperties.MissingUsernameCrashes`). A blank username with no `password`
  field is refused as "Username and password are required", because the `||`
  stops at the blank username.
- **The lockout check uses the raw username.** It is not the sanitised name (see
  Findings).
- **`AuthController.refreshToken` throws if called with a malformed token.**
  `isRefreshToken` does not catch the `IllegalArgumentException` raised for a
  malformed or badly signed token, so the method throws
  (`RefreshEndpoint.ForgedTokenEscapes`). In the deployed chain the gate runs first
  on "/refresh-token", which is not a public path, and answers such a token with
  401 "Invalid JWT token" (`RefreshEndpoint.GateStopsForgedRefresh`).
- **"User not found" cannot happen.** The gate's "User not found" branch is
  unreachable with the configured lookup, which throws instead of returning null
  (`RequestGate.UserNotFoundUnreachable`).
- **Refresh tokens open the gate.** The gate does not look at the token type, so a
  refresh token authenticates ordinary requests (`RequestGate.RefreshTokenPassesGate`).

## Model

| member | source | states |
|---|---|---|
| StringUtil.CheckEmptyString | src/main/java/com/budget/utilities/StringUtil.java:5-12 | true exactly when every character is Java whitespace (the empty string included); when false, some character is not whitespace |
| StringUtil.FirstNonWhitespace | src/main/java/com/budget/utilities/StringUtil.java:6-10 | the position where the scan stops: everything before it is whitespace, and the character there is not |
| StringUtil.BlankIffScanCompletes | src/main/java/com/budget/utilities/StringUtil.java:5-12 | a string is blank iff the scan runs off its end |
| StringUtil.BlankConcat | src/main/java/com/budget/utilities/StringUtil.java:5-12 | a concatenation is blank iff both parts are |
| StringUtil.EmptyIsBlank | src/main/java/com/budget/utilities/StringUtil.java:6-11 | the empty string counts as blank |
| ApiErrors.CodeRoundTrip | src/main/java/com/budget/exception/GlobalExceptionHandler.java:45 | the numeric status written into a body identifies the status uniquely |
| ApiErrors.WithStatus | src/main/java/com/budget/exception/ApiException.java:9-12 | carries the given status and message and no cause |
| ApiErrors.WithMessage | src/main/java/com/budget/exception/ApiException.java:14-16 | carries the message and no status |
| ApiErrors.WithMessageAndCause | src/main/java/com/budget/exception/ApiException.java:18-20 | carries message and cause and no status |
| ApiErrors.WithStatusAndCause | src/main/java/com/budget/exception/ApiException.java:22-25 | carries status and cause; the message is the cause's description |
| ApiErrors.SetStatus | src/main/java/com/budget/exception/ApiException.java:31-33 | message and cause are untouched |
| ApiErrors.GetAfterSet | src/main/java/com/budget/exception/ApiException.java:27-33 | the getter returns what the setter stored, and the last set wins |
| ExceptionHandler.CreateErrorResponse | src/main/java/com/budget/exception/GlobalExceptionHandler.java:39-50 | success is false, the numeric status decodes to the given status, the other fields are as given |
| ExceptionHandler.HandleApiException | src/main/java/com/budget/exception/GlobalExceptionHandler.java:19-37 | the response status is the exception's status, or 500 when it has none; body status, reason phrase, message and path agree with it |
| ExceptionHandler.HandlerStatusFollowsException | src/main/java/com/budget/exception/GlobalExceptionHandler.java:21 | the exceptions built with a status answer with it; those built without one answer with a 5xx |
| AuthResults.Success | src/main/java/com/budget/config/AuthenticationResult.java:13-15 | a success with no error message |
| AuthResults.SuccessAuthenticated | src/main/java/com/budget/model/authentication/AuthenticationResult.java:13-15 | success, not failure, no error message |
| AuthResults.Failure | src/main/java/com/budget/model/authentication/AuthenticationResult.java:17-19 | not a success, and the message is kept |
| AuthResults.OnlyFactoryValues | src/main/java/com/budget/model/authentication/AuthenticationResult.java:8-31 | every value is one the two factories make; failure is the negation of success; successes carry no message |
| UserLookup.LoadUserByUsername | src/main/java/com/budget/config/SecurityConfig.java:77-96 | null or trim-empty names fail with "Username cannot be empty"; unknown names fail with "User not found: " + name; otherwise the stored name and hash with the single USER role |
| UserLookup.AlwaysUserRole | src/main/java/com/budget/config/SecurityConfig.java:90-94 | every loaded user has exactly ROLE_USER, and names made of control characters and spaces never load |
| Jwt.CreateToken | src/main/java/com/budget/utilities/JwtUtil.java:48-57 | a signed token with the subject, roles and type given, issued now, expiring after the refresh or access lifetime |
| Jwt.GenerateToken | src/main/java/com/budget/utilities/JwtUtil.java:35-39 | signed, subject is the username, no type claim, the user's roles, access lifetime |
| Jwt.GenerateRefreshToken | src/main/java/com/budget/utilities/JwtUtil.java:41-46 | signed, subject is the username, type "refresh", refresh lifetime |
| Jwt.ExtractAllClaims | src/main/java/com/budget/utilities/JwtUtil.java:93-102 | claims come back iff the signature checks (expired tokens included); otherwise "Invalid JWT token" |
| Jwt.ExtractUsername | src/main/java/com/budget/utilities/JwtUtil.java:76-82 | the subject iff the token is signed; otherwise the same error |
| Jwt.IsTokenExpired | src/main/java/com/budget/utilities/JwtUtil.java:104-110 | expired exactly when the expiration is strictly before now |
| Jwt.ValidateToken | src/main/java/com/budget/utilities/JwtUtil.java:59-74 | true iff signed, subject equals the user's name and not expired; an unsigned token throws and a missing subject is a null dereference |
| Jwt.IsRefreshToken | src/main/java/com/budget/utilities/JwtUtil.java:112-120 | true iff the type claim is "refresh"; an unsigned token throws (the catch clause does not cover it) |
| Jwt.ClaimsRoundTrip | src/main/java/com/budget/utilities/JwtUtil.java:35-57 | parsing a generated token gives back exactly the claims put in |
| Jwt.AccessTokenValidity | src/main/java/com/budget/utilities/JwtUtil.java:48-66 | an access token validates for its user exactly until issue time plus the access lifetime |
| Jwt.RefreshTokenValidity | src/main/java/com/budget/utilities/JwtUtil.java:41-66 | a refresh token validates for its user exactly until issue time plus the refresh lifetime |
| Jwt.OtherUserRejected | src/main/java/com/budget/utilities/JwtUtil.java:59-66 | a token never validates for a different username |
| Jwt.RefreshKindSeparates | src/main/java/com/budget/utilities/JwtUtil.java:112-120 | refresh tokens are recognised and access tokens are not |
| Jwt.ExpiredTokenKeepsSubject | src/main/java/com/budget/utilities/JwtUtil.java:93-97 | an expired signed token still yields its subject but does not validate |
| Jwt.ForgedTokenThrows | src/main/java/com/budget/utilities/JwtUtil.java:93-102 | extraction, the refresh test and validation all throw on an unsigned token |
| RequestGate.ServiceLookup | src/main/java/com/budget/config/SecurityConfig.java:79-95 | the configured lookup never answers null |
| RequestGate.SendErrorResponse | src/main/java/com/budget/config/JwtAuthenticationFilter.java:100-109 | a rejection with the given status and message and success false |
| RequestGate.BearerToken | src/main/java/com/budget/config/JwtAuthenticationFilter.java:53-54 | a token iff the header starts with "Bearer ", and the header is the prefix followed by it |
| RequestGate.DoFilterInternal | src/main/java/com/budget/config/JwtAuthenticationFilter.java:35-98 | every rejection is a 401 with one of the four messages; public paths and requests without a bearer header pass unchanged; a principal is attached iff the token is signed, its subject loads and it validates for the loaded user, and then it is exactly those details |
| RequestGate.ValidTokenPassesGate | src/main/java/com/budget/config/JwtAuthenticationFilter.java:53-80 | a signed token whose subject loads and which validates for the loaded user passes a protected request with those details attached |
| RequestGate.AccessTokenPassesGate | src/main/java/com/budget/config/JwtAuthenticationFilter.java:53-80 | an unexpired access token of a stored user authenticates a protected request with that user's details |
| RequestGate.LookupThrowIsAuthenticationError | src/main/java/com/budget/config/JwtAuthenticationFilter.java:66-90 | a readable token whose subject the lookup throws on answers 401 "Authentication error" |
| RequestGate.FailedValidationIsInvalidOrExpired | src/main/java/com/budget/config/JwtAuthenticationFilter.java:75-85 | a readable token naming another user than the loaded details, or expired, answers 401 "Invalid or expired JWT token" |
| RequestGate.RejectionNamesItsCause | src/main/java/com/budget/config/JwtAuthenticationFilter.java:53-95 | each of the four messages is answered exactly for its own cause: unreadable token, lookup exception, null details, failed validation; validation never throws at that point |
| RequestGate.UnreadableTokenRejected | src/main/java/com/budget/config/JwtAuthenticationFilter.java:53-95 | a token that does not parse or has no subject answers 401 "Invalid JWT token" |
| RequestGate.ContextShortCircuits | src/main/java/com/budget/config/JwtAuthenticationFilter.java:66 | with an authentication already in the context the request passes without a lookup |
| RequestGate.PrincipalOnlyWhenValid | src/main/java/com/budget/config/JwtAuthenticationFilter.java:66-85 | a principal is set only for a bearer token whose subject loads and which validates for that user (the converse is `RequestGate.ValidTokenPassesGate`) |
| RequestGate.UserNotFoundUnreachable | src/main/java/com/budget/config/JwtAuthenticationFilter.java:68-73 | with the configured lookup, "User not found" is never answered |
| RequestGate.RefreshTokenPassesGate | src/main/java/com/budget/config/JwtAuthenticationFilter.java:53-80 | an unexpired refresh token of a stored user authenticates a protected request |
| RefreshEndpoint.RefreshToken | src/main/java/com/budget/controller/AuthController.java:24-47 | a missing or non-Bearer header is a 401 format error; 200 exactly when a fresh access token is issued, and only for a signed refresh token whose subject loads and validates |
| RefreshEndpoint.RefreshIssuesAccessToken | src/main/java/com/budget/controller/AuthController.java:29-40 | a live refresh token of a stored user yields a new access token for that user, with the access lifetime |
| RefreshEndpoint.AccessTokenRefused | src/main/java/com/budget/controller/AuthController.java:30-46 | an access token is refused with 401 "Invalid or expired refresh token" |
| RefreshEndpoint.StaleOrMismatchedRefreshRefused | src/main/java/com/budget/controller/AuthController.java:33-46 | an expired refresh token, or one whose stored user's name differs, is refused with 401 |
| RefreshEndpoint.ForgedTokenEscapes | src/main/java/com/budget/controller/AuthController.java:30 | called directly with an unsigned token, the controller method throws instead of answering |
| RefreshEndpoint.RefreshPathIsProtected | src/main/java/com/budget/config/SecurityConfig.java:43-46 | "/refresh-token" is not one of the public paths, so the gate checks its bearer token |
| RefreshEndpoint.GateStopsForgedRefresh | src/main/java/com/budget/config/SecurityConfig.java:52 | on the refresh route an unsigned bearer token is answered 401 "Invalid JWT token" by the gate before the controller runs |
| RefreshEndpoint.GatePassesHeaderlessRefresh | src/main/java/com/budget/config/JwtAuthenticationFilter.java:53-56 | a refresh request without a bearer header leaves the gate unauthenticated |
| Lockout.RecordFailure | src/main/java/com/budget/config/JsonAuthenticationFilter.java:279-300 | empty and "unknown" identities are not tracked and report 0; otherwise the count goes up by one, the lock is stamped at the 5th or any later failure, and nothing else changes |
| Lockout.ClearOnSuccess | src/main/java/com/budget/config/JsonAuthenticationFilter.java:175-179 | the identity's count and lock are gone; other identities are untouched |
| Lockout.IsAccountLocked | src/main/java/com/budget/config/JsonAuthenticationFilter.java:262-277 | locked iff a lock exists and now is before its unlock time; an expired lock is cleared together with the count |
| Lockout.Expired | src/main/java/com/budget/config/JsonAuthenticationFilter.java:302-315 | exactly the identities whose unlock time is strictly before now |
| Lockout.Sweep | src/main/java/com/budget/config/JsonAuthenticationFilter.java:302-315 | locks and counts of expired identities are removed, everything else is kept as it was |
| Lockout.SweepIdempotent | src/main/java/com/budget/config/JsonAuthenticationFilter.java:302-315 | sweeping twice at the same time is sweeping once |
| Lockout.ConsecutiveFailures | src/main/java/com/budget/config/JsonAuthenticationFilter.java:279-300 | n failures from an unlocked count c give count c+n, locked iff c+n >= 5, stamped at the last failure |
| Lockout.ConsecutiveFromLocked | src/main/java/com/budget/config/JsonAuthenticationFilter.java:279-300 | once at the threshold, every further failure re-stamps the lock at its own time |
| Lockout.FifthFailureLocks | src/main/java/com/budget/config/JsonAuthenticationFilter.java:39-40 | from a clean slate, four failures leave the account open and five lock it for the window |
| Lockout.ExpiryResetsCount | src/main/java/com/budget/config/JsonAuthenticationFilter.java:269-274 | after the window the account is open and the next failure counts as the first |
| Lockout.FailureWhileLockedRestartsWindow | src/main/java/com/budget/config/JsonAuthenticationFilter.java:287-290 | a failure while locked counts past 5 and moves the unlock time to now plus 15 minutes |
| Lockout.SuccessResets | src/main/java/com/budget/config/JsonAuthenticationFilter.java:175-179 | after a success the count is zero and the account is open |
| LoginFilter.KeepAllowed | src/main/java/com/budget/config/JsonAuthenticationFilter.java:153 | only characters of `[a-zA-Z0-9@._-]` remain, and the result is no longer than the input |
| LoginFilter.KeepAllowedFixesAllowed | src/main/java/com/budget/config/JsonAuthenticationFilter.java:153 | a string made only of `[a-zA-Z0-9@._-]` passes the filter unchanged |
| LoginFilter.KeepAllowedConcat | src/main/java/com/budget/config/JsonAuthenticationFilter.java:153 | the filter distributes over concatenation |
| LoginFilter.KeepAllowedDropsTrimmable | src/main/java/com/budget/config/JsonAuthenticationFilter.java:153 | characters trim removes are also all removed by the filter |
| LoginFilter.Sanitize | src/main/java/com/budget/config/JsonAuthenticationFilter.java:153 | the sanitised name has only allowed characters |
| LoginFilter.KeepAllowedDropsBack | src/main/java/com/budget/config/JsonAuthenticationFilter.java:153 | a trimmable suffix does not change the filtered result |
| LoginFilter.KeepAllowedOfSlice | src/main/java/com/budget/config/JsonAuthenticationFilter.java:153 | trimmable characters at either end do not change the filtered result |
| LoginFilter.SanitizeIsKeepAllowed | src/main/java/com/budget/config/JsonAuthenticationFilter.java:153 | trimming before filtering changes nothing: the sanitiser is the filter alone |
| LoginFilter.SanitizeIdempotent | src/main/java/com/budget/config/JsonAuthenticationFilter.java:322 | sanitising twice is sanitising once |
| LoginFilter.Message | src/main/java/com/budget/config/JsonAuthenticationFilter.java:78-147 | the error text of each rejection: the three fixed pre-check messages, the lockout message with its formatted unlock time, and the authentication manager's own message |
| LoginFilter.PreCheckMessagesDistinct | src/main/java/com/budget/config/JsonAuthenticationFilter.java:82-114 | the three pre-check messages differ from each other, and no lockout message equals "Invalid JSON format" |
| LoginFilter.AttemptAuthentication | src/main/java/com/budget/config/JsonAuthenticationFilter.java:64-126 | checks in order: content type, JSON, blank fields, lockout; verification is asked for only when all pass, with the sanitised name and the untouched password |
| LoginFilter.ExtractUsernameFromRequest | src/main/java/com/budget/config/JsonAuthenticationFilter.java:317-329 | the sanitised username, or "unknown" when there is no body or no field |
| LoginFilter.Unsuccessful | src/main/java/com/budget/config/JsonAuthenticationFilter.java:221-245 | records the failure; 401 body with current attempts, remaining max(0, 5 - current), locked iff current >= 5 with unlock time now + 15 minutes |
| LoginFilter.Successful | src/main/java/com/budget/config/JsonAuthenticationFilter.java:167-213 | clears the principal's ledger entry; 200 body with the principal's name, roles and a fresh access token |
| LoginFilter.LoginWith | src/main/java/com/budget/config/JsonAuthenticationFilter.java:64-260 | the whole login keeps the ledger well formed |
| LoginFilter.Login | src/main/java/com/budget/config/JsonAuthenticationFilter.java:64-77 | the login as written, lockout keyed by the raw username; keeps the ledger well formed |
| LoginFilter.LoginCorrected | src/main/java/com/budget/config/JsonAuthenticationFilter.java:118-126 | the login with lockout keyed by the sanitised name; keeps the ledger well formed |
| LoginProperties.JsonMediaTypeAccepted | src/main/java/com/budget/config/JsonAuthenticationFilter.java:79-85 | "application/json" passes the content-type check |
| LoginProperties.PlainNameFacts | src/main/java/com/budget/config/JsonAuthenticationFilter.java:153 | a plain name is its own sanitised form and both lockout keys agree on it |
| LoginProperties.ContentTypeCheckedFirst | src/main/java/com/budget/config/JsonAuthenticationFilter.java:79-85 | a wrong content type answers 401 with 0 attempts and leaves the ledger untouched |
| LoginProperties.UnparseableBodyRejected | src/main/java/com/budget/config/JsonAuthenticationFilter.java:87-107 | an unreadable body answers 401 with the `InvalidJson` rejection (whose message is "Invalid JSON format", see `LoginFilter.Message`) and leaves the ledger untouched |
| LoginProperties.MissingUsernameCrashes | src/main/java/com/budget/config/JsonAuthenticationFilter.java:110-112 | a body without a username field crashes without touching the ledger |
| LoginProperties.PreChecksPrecedeVerification | src/main/java/com/budget/config/JsonAuthenticationFilter.java:64-77 | when a pre-check rejects, the authentication manager's answer does not matter |
| LoginProperties.BlankPasswordCounts | src/main/java/com/budget/config/JsonAuthenticationFilter.java:110-115 | a blank password is rejected and still counts as a failure for the username |
| LoginProperties.WrongPasswordStep | src/main/java/com/budget/config/JsonAuthenticationFilter.java:221-245 | a wrong password on an open account increments the count, locks at 5, and reports the attempts |
| LoginProperties.LockedStep | src/main/java/com/budget/config/JsonAuthenticationFilter.java:118-148 | a locked account is refused before verification, yet the attempt is counted and the lock re-stamped |
| LoginProperties.FiveFailuresThenLocked | src/main/java/com/budget/config/JsonAuthenticationFilter.java:221-245 | four wrong passwords leave one attempt; the fifth locks; the right password within the window is still refused |
| LoginProperties.TrailingSpaceSanitisesAway | src/main/java/com/budget/config/JsonAuthenticationFilter.java:153 | a name with a trailing space differs from the name but sanitises to it |
| LoginProperties.RawKeyBypassesLockout | src/main/java/com/budget/config/JsonAuthenticationFilter.java:118-153 | as written, a locked name plus a trailing space reaches verification and can log in |
| LoginProperties.SanitisedKeyEnforcesLockout | src/main/java/com/budget/config/JsonAuthenticationFilter.java:118-126 | keyed by the sanitised name, every spelling of a locked name is refused |
| Registration.UsernameCheck | src/main/java/com/budget/service/impl/PersonServiceImpl.java:58-79 | accepted iff not blank, trimmed UTF-16 length 3..50 and only `[a-zA-Z0-9._-]`; otherwise BAD_REQUEST with the first failing rule's message: empty, too short, too long, bad characters |
| Registration.ValidateUsername | src/main/java/com/budget/service/impl/PersonServiceImpl.java:58-79 | the executable check agrees with the rules, blank test by the whitespace scan |
| Registration.IsPasswordStrong | src/main/java/com/budget/service/impl/PersonServiceImpl.java:112-114 | true iff the regular expression matches: an allowed first character, no line terminator, and a lower-case letter, an upper-case letter, a digit and one of `@$!%*?&` |
| Registration.PasswordCheck | src/main/java/com/budget/service/impl/PersonServiceImpl.java:81-102 | accepted iff not blank, untrimmed UTF-16 length 8..128 and strong; otherwise BAD_REQUEST with the first failing rule's message: empty, too short, too long, weak |
| Registration.ValidatePassword | src/main/java/com/budget/service/impl/PersonServiceImpl.java:81-102 | the executable check agrees with the rules |
| Registration.ValidateRegistrationInput | src/main/java/com/budget/service/impl/PersonServiceImpl.java:52-54 | username rules first; password rules only once the username passes |
| Registration.CheckUsernameAvailability | src/main/java/com/budget/service/impl/PersonServiceImpl.java:116-122 | CONFLICT iff the trimmed lower-cased name is stored |
| Registration.AcceptedUsernameSanitisesToTrim | src/main/java/com/budget/service/impl/PersonServiceImpl.java:75-78 | an accepted name has no '@', and the login sanitiser maps it to its trimmed form |
| Registration.AvailabilityIgnoresCase | src/main/java/com/budget/service/impl/PersonServiceImpl.java:117-119 | names equal after trimming and lower-casing get the same availability answer |
| Registration.SupplementaryPasswordLongEnough | src/main/java/com/budget/service/impl/PersonServiceImpl.java:87-95 | a six-character strong password with two characters outside the Basic Multilingual Plane has length 8 and is accepted |
| Registration.SupplementaryUsernameLongEnough | src/main/java/com/budget/service/impl/PersonServiceImpl.java:64-78 | a two-character username with one supplementary character has length 3, passes the length rules and is refused for its characters |
| JavaText.JavaLength | src/main/java/com/budget/service/impl/PersonServiceImpl.java:65 | `length()` counts UTF-16 units: between the character count and twice it, equal to it exactly when no character is supplementary |
| JavaText.JavaLengthConcat | src/main/java/com/budget/service/impl/PersonServiceImpl.java:87 | the UTF-16 length of a concatenation is the sum of the lengths |
| LedgerModel.NewLedger | src/main/java/com/budget/model/Ledger.java:32-38 | a fresh ledger has currency "USD", colour "#000000", is not deleted, and has nothing else set |
| LedgerModel.DefaultsFitColumns | src/main/java/com/budget/model/Ledger.java:24-35 | the defaults fit their columns once a person and a name of at most 20 characters are set |
| LedgerDao.FindByIdAndDeletedFalse | src/main/java/com/budget/dao/LedgerDao.java:16-17 | a ledger iff a row with that id is not deleted; a null id finds nothing |
| LedgerDao.FindByPersonIdAndNameAndDeletedFalse | src/main/java/com/budget/dao/LedgerDao.java:19-20 | empty iff no live row of the person has exactly that name; a single match is returned, several are an error |
| LedgerDao.FindAllByPersonIdAndDeletedFalse | src/main/java/com/budget/dao/LedgerDao.java:22-23 | exactly the person's live rows |
| LedgerDao.FindAllIsOrdered | src/main/java/com/budget/dao/LedgerDao.java:22 | that list is in ascending id order |
| LedgerDao.SoftDeletedInvisible | src/main/java/com/budget/dao/LedgerDao.java:16-23 | a deleted row is returned by none of the three queries |
| LedgerDao.Save | src/main/java/com/budget/model/Ledger.java:14-38 | refused iff a column constraint (non-null or length) fails; an existing id is overwritten in place, any other ledger gets a fresh id; rows under other ids keep their place and value; the table stays well formed |
| LedgerDao.SaveThenFind | src/main/java/com/budget/dao/LedgerDao.java:16-17 | what was saved is what a lookup by its id finds, unless saved as deleted |
| LedgerDao.SaveLeavesOtherIds | src/main/java/com/budget/dao/LedgerDao.java:16-17 | lookups of every other id are unchanged by a save |
| LedgerService.GetLedgerById | src/main/java/com/budget/service/impl/LedgerServiceImpl.java:29-43 | the live ledger with that id, or NOT_FOUND "Ledger not found." iff there is none |
| LedgerService.GetAllLedgersByPersonId | src/main/java/com/budget/service/impl/LedgerServiceImpl.java:45-48 | exactly the person's live ledgers |
| LedgerService.ValidateLedger | src/main/java/com/budget/service/impl/LedgerServiceImpl.java:79-91 | passes iff ledger, person, name and currency are present; otherwise BAD_REQUEST with the message of the first missing one: ledger or person, name, currency |
| LedgerService.AnyClash | src/main/java/com/budget/service/impl/LedgerServiceImpl.java:103-106 | some listed ledger with another id has a trimmed name equal to the candidate ignoring case |
| LedgerService.HasDuplicateLedgerName | src/main/java/com/budget/service/impl/LedgerServiceImpl.java:100-107 | a duplicate iff some live ledger of the person, with another id, has a trimmed name equal to the untrimmed candidate ignoring case |
| LedgerService.SaveLedger | src/main/java/com/budget/service/impl/LedgerServiceImpl.java:50-58 | succeeds iff complete, not a duplicate and within the columns; any failure leaves the table as it was; the table stays well formed |
| LedgerService.UpdateLedger | src/main/java/com/budget/service/impl/LedgerServiceImpl.java:60-68 | null crashes; a missing or deleted id is NOT_FOUND before any validation; succeeds iff the id is live, the ledger is complete, not a duplicate and fits its columns, and then the ledger as given is in the store |
| LedgerService.UpdateThenGet | src/main/java/com/budget/service/impl/LedgerServiceImpl.java:60-68 | after a successful update of a live ledger, looking its id up finds exactly that ledger |
| LedgerService.DeleteLedger | src/main/java/com/budget/service/impl/LedgerServiceImpl.java:70-77 | succeeds iff the ledger is live (and its row fits its columns); a missing ledger is NOT_FOUND and nothing changes; on success the row stays, now marked deleted, the table keeps its size and every row of another id is unchanged |
| LedgerService.DeleteLeavesOtherIds | src/main/java/com/budget/service/impl/LedgerServiceImpl.java:70-77 | a delete does not change the lookup of any other id |
| LedgerService.DeleteThenGetNotFound | src/main/java/com/budget/service/impl/LedgerServiceImpl.java:70-77 | deleting a live ledger succeeds and afterwards it is NOT_FOUND |
| LedgerService.ValidationIgnoresStore | src/main/java/com/budget/service/impl/LedgerServiceImpl.java:50-58 | an incomplete ledger gets the same refusal whatever is stored, and nothing is written |
| LedgerService.DuplicateNameRejected | src/main/java/com/budget/service/impl/LedgerServiceImpl.java:93-98 | a clash with another live ledger of the person refuses with "Ledger name already exists." and writes nothing |
| LedgerService.CandidateIsNotTrimmed | src/main/java/com/budget/service/impl/LedgerServiceImpl.java:106 | a candidate with a trailing space never clashes with the same name stored |
| LedgerService.OwnRowNeverClashes | src/main/java/com/budget/service/impl/LedgerServiceImpl.java:104 | a ledger's own row never counts as its duplicate |

## Left out

- Servlet plumbing is not modelled. This covers request and response streams, the cached-body request wrapper, JSON serialisation, content-type headers and the conversion of `LocalDateTime` to strings. Timestamps are the `now` value.
- The thread-local request data is read as the current request's body. The source can leak one request's body to the next on the same thread when a `NullPointerException` skips its removal; that leak is not modelled.
- Concurrency on the two concurrent maps is not modelled: each operation is one atomic step.
- Reading the clock, signing, and bcrypt are not modelled. The clock is the `now` parameter, HMAC signing becomes the token's integrity verdict, and password checking is the `verify` parameter.
- The parsing of tokens is the `decode` parameter. jjwt's truncation of issue and expiry times to whole seconds is not modelled, nor are parser exceptions other than signature and format errors.
- Formatting the unlock instant with the filter's date pattern is the `formatTime` parameter of `LoginFilter.Message`; date formatting is not modelled.
- `getLoginAttemptsStatus` is left out: it only reports on the maps.
- The last-login update in the success handler is left out. It is a persistence side effect whose exceptions are swallowed.
- `registerUser` and `createAndSaveUser` are left out (persistence).
- Registration.ValidateRegistrationInput: models the two validators only, not the `createAndSaveUser` call at the end of the source method, which is persistence.
- Lockout.RecordFailure: counts are unbounded integers, without Java's `int` wrap-around, which would need 2^31 failures.
- LedgerService.HasDuplicateLedgerName: `equalsIgnoreCase` is modelled on ASCII only; non-ASCII case mapping is not modelled.
- Registration.CheckUsernameAvailability: lower-cases with an ASCII-only mapping, which assumes a default locale whose case mapping agrees with `Locale.ROOT` on ASCII. The source calls `toLowerCase()` with the default locale; under a Turkish or Azeri default locale "ADMIN" lower-cases to "admın", so it is looked up under a different name than a stored "admin". The login filter's content-type check, by contrast, lower-cases with `Locale.ROOT`.
- A JSON body that is the literal `null` is not modelled: it parses to a null map and fails differently.
- Base-entity audit timestamps (`createdAt`, `updatedAt`) are not modelled.
- Ledger ids, person ids and the `deleted` flag are plain values: a null `deleted` is not modelled.
- LedgerDao.Save: the Bean Validation annotations (`@NotBlank` on person id, name and currency) are not modelled, only the database column constraints. Whether a validation provider runs at persist time depends on the build, which is not part of this model; if one ran, `@NotBlank` on the `Long` person id has no validator and would fail every write. So a blank name or currency such as `"   "` is saved.
- LedgerDao.Save: treats a given id that matches no row as an insert under a fresh id. This is JPA `merge` on an absent row; whether the provider instead raises an optimistic-locking error is not modelled.
- LedgerService.HasDuplicateLedgerName: a stored ledger with a null name is treated as no clash. The source would dereference null there, but the table's `name` column is non-null, so such a row cannot be stored.
- The framework's translation of exceptions is not modelled, for example data-integrity errors from the database.
- A refresh request without an `Authorization` header passes the gate unauthenticated (`RefreshEndpoint.GatePassesHeaderlessRefresh`); the chain's `authenticated()` rule then sends it to the entry point, which answers 401 "Unauthorized" (src/main/java/com/budget/config/SecurityConfig.java:53-57). That authorization step and entry point are not modelled, so the missing-header branch of `RefreshEndpoint.RefreshToken` is the controller's own behaviour, not what a client sees.
- Other controllers, the rest of the security filter-chain configuration, Flyway and the application entry point are not modelled.

## Findings

| source | as written | input that shows it | evidently intended | confidence | as-written member | corrected member |
|---|---|---|---|---|---|---|
| src/main/java/com/budget/config/JsonAuthenticationFilter.java:74 | the lockout check is keyed by the raw submitted username, while failures are recorded and verification is done under the trimmed, sanitised username | with "ann" locked, submit `{"username":"ann ","password":…}`: the raw key "ann " has no lock, the sanitised name "ann" is verified, so a correct password logs in and a wrong one keeps guessing during the lockout | check the lockout under the same sanitised identity that failures are recorded under | not executed | LoginProperties.RawKeyBypassesLockout | LoginProperties.SanitisedKeyEnforcesLockout |

=== FILE: api_errors.dfy ===
/** `ApiException` and the subset of Spring's `HttpStatus` the core uses. */
module ApiErrors {
  import opened Wrappers

  datatype HttpStatus =
    | OkStatus
    | BadRequest
    | Unauthorized
    | Forbidden
    | NotFound
    | Conflict
    | InternalServerError

  /** The numeric code of a status. */
  function Code(s: HttpStatus): (code: int)
    ensures 200 <= code < 600
  {
    match s
    case OkStatus => 200
    case BadRequest => 400
    case Unauthorized => 401
    case Forbidden => 403
    case NotFound => 404
    case Conflict => 409
    case InternalServerError => 500
  }

  /** The status a numeric code names, if it is one of the modelled ones. */
  function FromCode(code: int): Option<HttpStatus> {
    if code == 200 then Some(OkStatus)
    else if code == 400 then Some(BadRequest)
    else if code == 401 then Some(Unauthorized)
    else if code == 403 then Some(Forbidden)
    else if code == 404 then Some(NotFound)
    else if code == 409 then Some(Conflict)
    else if code == 500 then Some(InternalServerError)
    else None
  }

  /** The code determines the status: reading a code back gives the status. */
  lemma CodeRoundTrip(s: HttpStatus)
    ensures FromCode(Code(s)) == Some(s)
  {
  }

  lemma CodeInjective(s: HttpStatus, t: HttpStatus)
    ensures Code(s) == Code(t) <==> s == t
  {
    CodeRoundTrip(s);
    CodeRoundTrip(t);
  }

  function ReasonPhrase(s: HttpStatus): string {
    match s
    case OkStatus => "OK"
    case BadRequest => "Bad Request"
    case Unauthorized => "Unauthorized"
    case Forbidden => "Forbidden"
    case NotFound => "Not Found"
    case Conflict => "Conflict"
    case InternalServerError => "Internal Server Error"
  }

  predicate Is5xxServerError(s: HttpStatus) {
    500 <= Code(s) < 600
  }

  /** A throwable used as a cause; `description` is its `toString()`. */
  datatype Cause = Cause(description: string)

  /** An `ApiException`: a `RuntimeException` whose status may be null. */
  datatype ApiException = ApiException(status: Option<HttpStatus>, message: Option<string>, cause: Option<Cause>)

  /** `new ApiException(status, message)`. */
  function WithStatus(status: HttpStatus, message: string): (e: ApiException)
    ensures GetStatus(e) == Some(status) && e.message == Some(message)
    ensures e.cause.None?
  {
    ApiException(Some(status), Some(message), None)
  }

  /** `new ApiException(message)`: the status stays null. */
  function WithMessage(message: string): (e: ApiException)
    ensures GetStatus(e).None? && e.message == Some(message) && e.cause.None?
  {
    ApiException(None, Some(message), None)
  }

  /** `new ApiException(message, cause)`: the status stays null. */
  function WithMessageAndCause(message: string, cause: Cause): (e: ApiException)
    ensures GetStatus(e).None? && e.message == Some(message) && e.cause == Some(cause)
  {
    ApiException(None, Some(message), Some(cause))
  }

  /** `new ApiException(status, cause)`: `RuntimeException(Throwable)` takes
      the cause's `toString()` as its message. */
  function WithStatusAndCause(status: HttpStatus, cause: Cause): (e: ApiException)
    ensures GetStatus(e) == Some(status) && e.cause == Some(cause)
    ensures e.message == Some(cause.description)
  {
    ApiException(Some(status), Some(cause.description), Some(cause))
  }

  function GetStatus(e: ApiException): Option<HttpStatus> {
    e.status
  }

  /** `setStatus`: replaces the status (null allowed) and nothing else. */
  function SetStatus(e: ApiException, status: Option<HttpStatus>): (e': ApiException)
    ensures e'.message == e.message && e'.cause == e.cause
  {
    e.(status := status)
  }

  /** `getStatus` returns the value most recently set. */
  lemma GetAfterSet(e: ApiException, s1: Option<HttpStatus>, s2: Option<HttpStatus>)
    ensures GetStatus(SetStatus(e, s1)) == s1
    ensures GetStatus(SetStatus(SetStatus(e, s1), s2)) == s2
  {
  }
}

=== FILE: auth_results.dfy ===
/** The two `AuthenticationResult` value classes (one in the config package
    with factory `success()`, one in the model package with factory
    `successAuthenticated()`). Both have a private constructor and final
    fields, so a value is either the success or a failure carrying the
    message given to `failure`; the datatype below has exactly those values. */
module AuthResults {
  import opened Wrappers

  datatype AuthenticationResult = Succeeded | Failed(message: Option<string>)

  predicate IsSuccess(r: AuthenticationResult) {
    r.Succeeded?
  }

  predicate IsFailure(r: AuthenticationResult) {
    !IsSuccess(r)
  }

  function GetErrorMessage(r: AuthenticationResult): Option<string> {
    match r
    case Succeeded => None
    case Failed(m) => m
  }

  /** `AuthenticationResult.success()` of the config package. */
  function Success(): (r: AuthenticationResult)
    ensures IsSuccess(r) && GetErrorMessage(r).None?
  {
    Succeeded
  }

  /** `AuthenticationResult.successAuthenticated()` of the model package. */
  function SuccessAuthenticated(): (r: AuthenticationResult)
    ensures IsSuccess(r) && !IsFailure(r) && GetErrorMessage(r).None?
  {
    Succeeded
  }

  /** `failure(message)` of either class; the message may be null. */
  function Failure(message: Option<string>): (r: AuthenticationResult)
    ensures !IsSuccess(r) && GetErrorMessage(r) == message
  {
    Failed(message)
  }

  /** Every value is produced by one of the factories, and a success carries
      no message. The middle clause, `isFailure` as the negation of
      `isSuccess`, holds by the definition of `IsFailure`. */
  lemma OnlyFactoryValues(r: AuthenticationResult)
    ensures r == Success() || r == Failure(GetErrorMessage(r))
    ensures IsFailure(r) <==> !IsSuccess(r)
    ensures IsSuccess(r) ==> GetErrorMessage(r).None?
  {
  }
}

=== FILE: exception_handler.dfy ===
/** `GlobalExceptionHandler.handleApiException`: how an `ApiException`
    escaping a controller becomes an HTTP response. */
module ExceptionHandler {
  import opened Wrappers
  import opened ApiErrors

  datatype ErrorBody = ErrorBody(
    success: bool,
    error: string,
    message: Option<string>,
    status: int,
    timestamp: int,
    path: string)

  datatype ErrorResponse = ErrorResponse(status: HttpStatus, body: ErrorBody)

  /** `createErrorResponse`: the body is always a failure and carries the
      numeric code of the status it reports. */
  function CreateErrorResponse(error: string, message: Option<string>, status: HttpStatus, path: string, now: int): (b: ErrorBody)
    ensures !b.success
    ensures FromCode(b.status) == Some(status)
    ensures b.error == error && b.message == message && b.path == path && b.timestamp == now
  {
    CodeRoundTrip(status);
    ErrorBody(false, error, message, Code(status), now, path)
  }

  /** `handleApiException`: the exception's status, or 500 when it has
      none; the body's status, error phrase and message agree with it. */
  function HandleApiException(e: ApiException, path: string, now: int): (r: ErrorResponse)
    ensures e.status.Some? ==> r.status == e.status.value
    ensures e.status.None? ==> r.status == InternalServerError
    ensures !r.body.success
    ensures r.body.status == Code(r.status)
    ensures r.body.error == ReasonPhrase(r.status)
    ensures r.body.message == e.message
    ensures r.body.path == path
  {
    var status := e.status.GetOr(InternalServerError);
    ErrorResponse(status, CreateErrorResponse(ReasonPhrase(status), e.message, status, path, now))
  }

  /** An exception thrown with a status is reported with that status, and
      one without falls back to a server error, whatever its message. */
  lemma HandlerStatusFollowsException(status: HttpStatus, m: string, c: Cause, path: string, now: int)
    ensures HandleApiException(WithStatus(status, m), path, now).status == status
    ensures HandleApiException(WithStatusAndCause(status, c), path, now).status == status
    ensures Is5xxServerError(HandleApiException(WithMessage(m), path, now).status)
    ensures Is5xxServerError(HandleApiException(WithMessageAndCause(m, c), path, now).status)
    ensures HandleApiException(WithStatus(status, m), path, now).body.message == Some(m)
  {
  }
}

=== FILE: java_text.dfy ===
/** The few `java.lang.String` and `java.lang.Character` operations the core
    relies on, over Dafny strings (sequences of Unicode scalar values). */
module JavaText {

  /** `Character.isWhitespace`: the Unicode space, line and paragraph
      separators other than the no-break spaces U+00A0, U+2007 and U+202F,
      plus U+0009..U+000D and U+001C..U+001F. */
  predicate IsWhitespace(c: char) {
    var n := c as int;
    (0x09 <= n <= 0x0D) || (0x1C <= n <= 0x20) || n == 0x1680
    || (0x2000 <= n <= 0x2006) || (0x2008 <= n <= 0x200A)
    || n == 0x2028 || n == 0x2029 || n == 0x205F || n == 0x3000
  }

  /** `String.trim` removes every leading and trailing character whose code
      is at most U+0020 (a different set from `IsWhitespace`). */
  predicate IsTrimmable(c: char) {
    c as int <= 0x20
  }

  /** Number of trimmable characters at the front of `s`. */
  function Leading(s: string): (n: nat)
    ensures n <= |s|
    ensures forall k :: 0 <= k < n ==> IsTrimmable(s[k])
    ensures n < |s| ==> !IsTrimmable(s[n])
  {
    if |s| > 0 && IsTrimmable(s[0]) then 1 + Leading(s[1..]) else 0
  }

  /** Length of `s` without its trailing trimmable characters. */
  function Ending(s: string): (m: nat)
    ensures m <= |s|
    ensures forall k :: m <= k < |s| ==> IsTrimmable(s[k])
    ensures m > 0 ==> !IsTrimmable(s[m - 1])
  {
    if |s| > 0 && IsTrimmable(s[|s| - 1]) then Ending(s[..|s| - 1]) else |s|
  }

  /** `String.trim`: the longest infix with no trimmable character at either
      end, obtained by dropping only trimmable characters. */
  function Trim(s: string): (r: string)
    ensures Leading(s) + |r| <= |s| && r == s[Leading(s)..Leading(s) + |r|]
    ensures forall k :: 0 <= k < Leading(s) ==> IsTrimmable(s[k])
    ensures forall k :: Leading(s) + |r| <= k < |s| ==> IsTrimmable(s[k])
    ensures |r| > 0 ==> !IsTrimmable(r[0]) && !IsTrimmable(r[|r| - 1])
  {
    var i := Leading(s);
    if i == |s| then "" else s[i..Ending(s)]
  }

  /** A character outside the Basic Multilingual Plane, which a Java
      string stores as a surrogate pair. */
  predicate IsSupplementary(c: char) {
    c as int > 0xFFFF
  }

  /** `String.length`: the number of UTF-16 code units, one per character
      of the Basic Multilingual Plane and two per supplementary character. */
  function JavaLength(s: string): (n: nat)
    ensures |s| <= n <= 2 * |s|
    ensures n == |s| <==> forall k :: 0 <= k < |s| ==> !IsSupplementary(s[k])
  {
    if |s| == 0 then 0
    else (if IsSupplementary(s[0]) then 2 else 1) + JavaLength(s[1..])
  }

  /** The UTF-16 length of a concatenation is the sum of the lengths. */
  lemma {:induction false} JavaLengthConcat(a: string, b: string)
    ensures JavaLength(a + b) == JavaLength(a) + JavaLength(b)
    decreases |a|
  {
    if |a| > 0 {
      assert (a + b)[0] == a[0];
      assert (a + b)[1..] == a[1..] + b;
      JavaLengthConcat(a[1..], b);
    } else {
      assert a + b == b;
    }
  }

  predicate IsAsciiUpper(c: char) {
    'A' <= c <= 'Z'
  }

  predicate IsAsciiLower(c: char) {
    'a' <= c <= 'z'
  }

  predicate IsAsciiDigit(c: char) {
    '0' <= c <= '9'
  }

  predicate IsAsciiLetterOrDigit(c: char) {
    IsAsciiUpper(c) || IsAsciiLower(c) || IsAsciiDigit(c)
  }

  /** Lower-casing of one character, on the ASCII range. */
  function LowerChar(c: char): (r: char)
    ensures !IsAsciiUpper(r)
    ensures IsAsciiUpper(c) ==> r as int == c as int + 32
    ensures !IsAsciiUpper(c) ==> r == c
  {
    if IsAsciiUpper(c) then (c as int + 32) as char else c
  }

  /** `String.toLowerCase`, on the ASCII range. */
  function ToLower(s: string): (r: string)
    ensures |r| == |s|
    ensures forall k :: 0 <= k < |s| ==> r[k] == LowerChar(s[k])
  {
    if |s| == 0 then "" else [LowerChar(s[0])] + ToLower(s[1..])
  }

  /** Lower-casing leaves a string without upper-case letters unchanged. */
  lemma ToLowerFixesLower(s: string)
    requires forall k :: 0 <= k < |s| ==> !IsAsciiUpper(s[k])
    ensures ToLower(s) == s
  {
  }

  lemma ContainsItself(s: string)
    ensures Contains(s, s)
  {
    assert s[..|s|] == s;
  }

  /** `String.equalsIgnoreCase`, on the ASCII range. */
  predicate EqualsIgnoreCase(a: string, b: string) {
    ToLower(a) == ToLower(b)
  }

  predicate StartsWith(s: string, prefix: string) {
    |prefix| <= |s| && s[..|prefix|] == prefix
  }

  /** `String.contains`: `needle` occurs at some offset of `s`. */
  predicate Contains(s: string, needle: string)
    decreases |s|
  {
    StartsWith(s, needle) || (|s| > 0 && Contains(s[1..], needle))
  }

  lemma {:induction false} ContainsAt(s: string, needle: string, i: nat)
    requires i + |needle| <= |s| && s[i..i + |needle|] == needle
    ensures Contains(s, needle)
    decreases i
  {
    if i > 0 {
      assert s[1..][i - 1..i - 1 + |needle|] == s[i..i + |needle|];
      ContainsAt(s[1..], needle, i - 1);
    }
  }

  /** `String.substring(n)` for `n <= |s|`. */
  function Drop(s: string, n: nat): (r: string)
    requires n <= |s|
    ensures |r| == |s| - n
    ensures forall k :: 0 <= k < |r| ==> r[k] == s[n + k]
  {
    s[n..]
  }
}

=== FILE: jwt.dfy ===
/** `JwtUtil` over an abstract token. A bearer string is seen as the claims
    it carries plus what the parser makes of it: signed with the server key,
    signed with another key, or not a JWS at all. Signing and Base64 are not
    modelled; only the server can produce a `Signed` token. */
module Jwt {
  import opened Wrappers
  import opened UserLookup

  /** `jwt.expiration` and `jwt.refresh.expiration` defaults, in milliseconds. */
  const DefaultAccessLifetime: int := 86400000
  const DefaultRefreshLifetime: int := 604800000

  datatype Config = Config(accessLifetime: int, refreshLifetime: int)

  const DefaultConfig := Config(DefaultAccessLifetime, DefaultRefreshLifetime)

  const RefreshType := "refresh"

  datatype Claims = Claims(
    subject: Option<string>,
    roles: seq<string>,
    tokenType: Option<string>,
    issuedAt: int,
    expiration: int)

  datatype Integrity = Signed | BadSignature | Malformed

  datatype Token = Token(claims: Claims, integrity: Integrity)

  /** What claim extraction can throw: the parser's rejection rethrown as
      `IllegalArgumentException("Invalid JWT token")`, or the
      `NullPointerException` of comparing a missing subject. */
  datatype JwtError = InvalidJwtToken | NullSubject

  /** `createToken`: the claims map, subject, issue time now and expiry now
      plus the lifetime of the requested kind. */
  function CreateToken(cfg: Config, roles: seq<string>, tokenType: Option<string>, subject: string, isRefresh: bool, now: int): (t: Token)
    ensures t.integrity == Signed
    ensures t.claims.subject == Some(subject) && t.claims.tokenType == tokenType && t.claims.roles == roles
    ensures t.claims.issuedAt == now
    ensures t.claims.expiration == now + (if isRefresh then cfg.refreshLifetime else cfg.accessLifetime)
  {
    var lifetime := if isRefresh then cfg.refreshLifetime else cfg.accessLifetime;
    Token(Claims(Some(subject), roles, tokenType, now, now + lifetime), Signed)
  }

  /** `generateToken`: an access token has no type claim. */
  function GenerateToken(cfg: Config, user: UserDetails, now: int): (t: Token)
    ensures t.integrity == Signed && t.claims.subject == Some(user.username)
    ensures t.claims.tokenType.None? && t.claims.roles == user.authorities
    ensures t.claims.expiration == now + cfg.accessLifetime
  {
    CreateToken(cfg, user.authorities, None, user.username, false, now)
  }

  /** `generateRefreshToken`: type "refresh" and the refresh lifetime. */
  function GenerateRefreshToken(cfg: Config, user: UserDetails, now: int): (t: Token)
    ensures t.integrity == Signed && t.claims.subject == Some(user.username)
    ensures t.claims.tokenType == Some(RefreshType) && t.claims.roles == user.authorities
    ensures t.claims.expiration == now + cfg.refreshLifetime
  {
    CreateToken(cfg, user.authorities, Some(RefreshType), user.username, true, now)
  }

  /** `extractAllClaims`: an expired token still yields its claims (the
      parser's `ExpiredJwtException` is caught); a bad signature or a
      malformed token becomes `InvalidJwtToken`. */
  function ExtractAllClaims(t: Token): (r: Result<Claims, JwtError>)
    ensures r.Ok? <==> t.integrity == Signed
    ensures r.Ok? ==> r.value == t.claims
    ensures r.Err? ==> r.error == InvalidJwtToken
  {
    if t.integrity == Signed then Ok(t.claims) else Err(InvalidJwtToken)
  }

  /** `extractUsername`: the subject (possibly null), whether or not the
      token has expired. */
  function ExtractUsername(t: Token): (r: Result<Option<string>, JwtError>)
    ensures r.Ok? <==> t.integrity == Signed
    ensures r.Ok? ==> r.value == t.claims.subject
    ensures r.Err? ==> r.error == InvalidJwtToken
  {
    match ExtractAllClaims(t)
    case Ok(c) => Ok(c.subject)
    case Err(e) => Err(e)
  }

  /** `isTokenExpired`: strictly before now. */
  function IsTokenExpired(t: Token, now: int): (r: Result<bool, JwtError>)
    ensures r.Ok? <==> t.integrity == Signed
    ensures r.Ok? ==> (r.value <==> t.claims.expiration < now)
  {
    match ExtractAllClaims(t)
    case Ok(c) => Ok(c.expiration < now)
    case Err(e) => Err(e)
  }

  /** `validateToken`: the subject equals the user's name and the token has
      not expired. The catch clauses of the source name exceptions that
      `extractAllClaims` has already turned into `IllegalArgumentException`,
      so a forged or malformed token escapes as an error; a token without
      a subject escapes as a `NullPointerException`. */
  function ValidateToken(t: Token, user: UserDetails, now: int): (r: Result<bool, JwtError>)
    ensures r.Ok? <==> t.integrity == Signed && t.claims.subject.Some?
    ensures r == Ok(true) <==>
      t.integrity == Signed && t.claims.subject == Some(user.username) && !(t.claims.expiration < now)
    ensures t.integrity != Signed ==> r == Err(InvalidJwtToken)
    ensures t.integrity == Signed && t.claims.subject.None? ==> r == Err(NullSubject)
  {
    match ExtractUsername(t)
    case Err(e) => Err(e)
    case Ok(None) => Err(NullSubject)
    case Ok(Some(name)) =>
      match IsTokenExpired(t, now)
      case Err(e) => Err(e)
      case Ok(expired) => Ok(name == user.username && !expired)
  }

  /** `isRefreshToken`: true iff the type claim is "refresh". Its catch
      clause never sees the parser's exceptions, which `extractAllClaims`
      has rethrown as `IllegalArgumentException`, so a forged or malformed
      token makes it throw rather than answer false. */
  function IsRefreshToken(t: Token): (r: Result<bool, JwtError>)
    ensures r.Ok? <==> t.integrity == Signed
    ensures r.Ok? ==> (r.value <==> t.claims.tokenType == Some(RefreshType))
    ensures r.Err? ==> r.error == InvalidJwtToken
  {
    match ExtractAllClaims(t)
    case Ok(c) => Ok(c.tokenType == Some(RefreshType))
    case Err(e) => Err(e)
  }

  /** Round trip: the claims read back from a generated token are the ones
      put in, for either kind. */
  lemma ClaimsRoundTrip(cfg: Config, user: UserDetails, now: int)
    ensures ExtractAllClaims(GenerateToken(cfg, user, now))
      == Ok(Claims(Some(user.username), user.authorities, None, now, now + cfg.accessLifetime))
    ensures ExtractAllClaims(GenerateRefreshToken(cfg, user, now))
      == Ok(Claims(Some(user.username), user.authorities, Some(RefreshType), now, now + cfg.refreshLifetime))
    ensures ExtractUsername(GenerateToken(cfg, user, now)) == Ok(Some(user.username))
    ensures ExtractUsername(GenerateRefreshToken(cfg, user, now)) == Ok(Some(user.username))
  {
  }

  /** A generated access token validates against its own user exactly until
      its expiry instant, and so validates right after issue when the
      lifetime is not negative. */
  lemma AccessTokenValidity(cfg: Config, user: UserDetails, issued: int, at: int)
    ensures ValidateToken(GenerateToken(cfg, user, issued), user, at) == Ok(at <= issued + cfg.accessLifetime)
    ensures cfg.accessLifetime >= 0 ==> ValidateToken(GenerateToken(cfg, user, issued), user, issued) == Ok(true)
  {
  }

  /** The same for refresh tokens, with the refresh lifetime. */
  lemma RefreshTokenValidity(cfg: Config, user: UserDetails, issued: int, at: int)
    ensures ValidateToken(GenerateRefreshToken(cfg, user, issued), user, at) == Ok(at <= issued + cfg.refreshLifetime)
  {
  }

  /** A token never validates against a user other than its subject. */
  lemma OtherUserRejected(cfg: Config, user: UserDetails, other: UserDetails, issued: int, at: int)
    requires other.username != user.username
    ensures ValidateToken(GenerateToken(cfg, user, issued), other, at) == Ok(false)
    ensures ValidateToken(GenerateRefreshToken(cfg, user, issued), other, at) == Ok(false)
  {
  }

  /** `isRefreshToken` separates the two kinds of generated token. */
  lemma RefreshKindSeparates(cfg: Config, user: UserDetails, now: int)
    ensures IsRefreshToken(GenerateRefreshToken(cfg, user, now)) == Ok(true)
    ensures IsRefreshToken(GenerateToken(cfg, user, now)) == Ok(false)
  {
  }

  /** An expired signed token still yields its subject, but does not
      validate against anyone. */
  lemma ExpiredTokenKeepsSubject(t: Token, user: UserDetails, now: int)
    requires t.integrity == Signed && t.claims.subject.Some? && t.claims.expiration < now
    ensures ExtractUsername(t) == Ok(t.claims.subject)
    ensures ValidateToken(t, user, now) == Ok(false)
  {
  }

  /** A forged or malformed token makes every extraction throw the same
      error, including `isRefreshToken`. */
  lemma ForgedTokenThrows(t: Token, user: UserDetails, now: int)
    requires t.integrity != Signed
    ensures ExtractUsername(t) == Err(InvalidJwtToken)
    ensures IsRefreshToken(t) == Err(InvalidJwtToken)
    ensures ValidateToken(t, user, now) == Err(InvalidJwtToken)
  {
  }
}

=== FILE: ledger_dao.dfy ===
/** `LedgerDao`: the table as a sequence of rows in primary-key order, the
    three JPQL queries as filters over it, and `save`. */
module LedgerDao {
  import opened Wrappers
  import opened LedgerModel

  /** `rows` in ascending `ledgerId` order; `nextId` is the identity
      sequence's next value. */
  datatype Store = Store(rows: seq<Ledger>, nextId: int)

  const EmptyStore := Store([], 1)

  datatype DaoError =
    | DataIntegrityViolation   // a column constraint refused the row
    | NonUniqueResult          // a single-result query matched several rows

  predicate AscendingIds(rows: seq<Ledger>) {
    && (forall i :: 0 <= i < |rows| ==> rows[i].ledgerId.Some?)
    && (forall i, j :: 0 <= i < j < |rows| ==> rows[i].ledgerId.value < rows[j].ledgerId.value)
  }

  /** What the database guarantees of the table. */
  predicate Wf(s: Store) {
    && AscendingIds(s.rows)
    && (forall i :: 0 <= i < |s.rows| ==> s.rows[i].ledgerId.value < s.nextId)
    && (forall i :: 0 <= i < |s.rows| ==> FitsColumns(s.rows[i]))
  }

  lemma EmptyStoreWf()
    ensures Wf(EmptyStore)
  {
  }

  /** The rows a WHERE clause keeps, in table order. */
  function Select(rows: seq<Ledger>, keep: Ledger -> bool): (r: seq<Ledger>)
    ensures |r| <= |rows|
    ensures forall x :: x in r <==> x in rows && keep(x)
  {
    if |rows| == 0 then []
    else (if keep(rows[0]) then [rows[0]] else []) + Select(rows[1..], keep)
  }

  /** A row with a smaller id than everything in an ascending list can go
      in front of it. */
  lemma AscendingCons(h: Ledger, tail: seq<Ledger>)
    requires h.ledgerId.Some? && AscendingIds(tail)
    requires forall x :: x in tail ==> x.ledgerId.Some? && h.ledgerId.value < x.ledgerId.value
    ensures AscendingIds([h] + tail)
  {
    var r := [h] + tail;
    forall i, j | 0 <= i < j < |r|
      ensures r[i].ledgerId.value < r[j].ledgerId.value
    {
      assert r[j] == tail[j - 1];
      assert r[j] in tail;
      if i > 0 {
        assert r[i] == tail[i - 1];
      }
    }
  }

  /** In an ascending table every later row has a larger id than the first. */
  lemma HeadIsSmallest(rows: seq<Ledger>)
    requires |rows| > 0 && AscendingIds(rows)
    ensures forall x :: x in rows[1..] ==> x.ledgerId.Some? && rows[0].ledgerId.value < x.ledgerId.value
  {
    forall x | x in rows[1..]
      ensures x.ledgerId.Some? && rows[0].ledgerId.value < x.ledgerId.value
    {
      var k :| 0 <= k < |rows[1..]| && rows[1..][k] == x;
      assert rows[k + 1] == x;
    }
  }

  lemma {:induction false} SelectKeepsAscending(rows: seq<Ledger>, keep: Ledger -> bool)
    requires AscendingIds(rows)
    ensures AscendingIds(Select(rows, keep))
  {
    if |rows| > 0 {
      var tail := Select(rows[1..], keep);
      assert AscendingIds(rows[1..]);
      SelectKeepsAscending(rows[1..], keep);
      if keep(rows[0]) {
        HeadIsSmallest(rows);
        AscendingCons(rows[0], tail);
        assert Select(rows, keep) == [rows[0]] + tail;
      } else {
        assert Select(rows, keep) == tail;
      }
    }
  }

  /** A row that neither the old nor the new contents of position `i`
      satisfy is invisible to the query, so the update does not change it. */
  lemma {:induction false} SelectIgnoresUnkeptUpdate(rows: seq<Ledger>, i: nat, l: Ledger, keep: Ledger -> bool)
    requires i < |rows|
    requires !keep(rows[i]) && !keep(l)
    ensures Select(rows[i := l], keep) == Select(rows, keep)
  {
    if i > 0 {
      SelectIgnoresUnkeptUpdate(rows[1..], i - 1, l, keep);
      assert rows[i := l][1..] == rows[1..][i - 1 := l];
    } else {
      assert rows[i := l][1..] == rows[1..];
    }
  }

  lemma {:induction false} SelectAppend(rows: seq<Ledger>, l: Ledger, keep: Ledger -> bool)
    ensures Select(rows + [l], keep) == Select(rows, keep) + (if keep(l) then [l] else [])
  {
    var rl := rows + [l];
    if |rows| == 0 {
      assert rl == [l];
      assert rl[1..] == [];
    } else {
      assert rl[0] == rows[0];
      assert rl[1..] == rows[1..] + [l];
      SelectAppend(rows[1..], l, keep);
      var head := if keep(rows[0]) then [rows[0]] else [];
      assert Select(rl, keep) == head + Select(rows[1..] + [l], keep);
      assert Select(rows, keep) == head + Select(rows[1..], keep);
    }
  }

  /** `l.ledgerId = :ledgerId AND l.deleted = false`; SQL equality with a
      null parameter matches nothing. */
  predicate LiveWithId(l: Ledger, id: Option<int>) {
    id.Some? && l.ledgerId == id && !l.deleted
  }

  /** `l.personId = :personId AND l.deleted = false`. */
  predicate LiveOfPerson(l: Ledger, personId: Option<int>) {
    personId.Some? && l.personId == personId && !l.deleted
  }

  /** `l.personId = :personId AND l.name = :ledgerName AND l.deleted = false`:
      the name comparison is exact. */
  predicate LiveNamed(l: Ledger, personId: Option<int>, name: Option<string>) {
    LiveOfPerson(l, personId) && name.Some? && l.name == name
  }

  /** `findByIdAndDeletedFalse`. */
  function FindByIdAndDeletedFalse(rows: seq<Ledger>, id: Option<int>): (r: Option<Ledger>)
    ensures r.Some? <==> exists x :: x in rows && LiveWithId(x, id)
    ensures r.Some? ==> r.value in rows && LiveWithId(r.value, id)
  {
    var found := Select(rows, l => LiveWithId(l, id));
    if |found| == 0 then None
    else
      assert found[0] in found;
      Some(found[0])
  }

  /** `findByPersonIdAndNameAndDeletedFalse`: an `Optional` result, so more
      than one match is an error rather than a choice. */
  function FindByPersonIdAndNameAndDeletedFalse(rows: seq<Ledger>, personId: Option<int>, name: Option<string>): (r: Result<Option<Ledger>, DaoError>)
    ensures r == Ok(None) <==> forall x :: x in rows ==> !LiveNamed(x, personId, name)
    ensures r.Ok? && r.value.Some? ==> r.value.value in rows && LiveNamed(r.value.value, personId, name)
    ensures r.Ok? && r.value.Some? ==> forall x :: x in rows && LiveNamed(x, personId, name) ==> x == r.value.value
  {
    var found := Select(rows, l => LiveNamed(l, personId, name));
    if |found| == 0 then Ok(None)
    else if |found| == 1 then
      assert found[0] in found;
      assert forall x :: x in found ==> x == found[0];
      Ok(Some(found[0]))
    else
      assert found[0] in found;
      Err(NonUniqueResult)
  }

  /** `findAllByPersonIdAndDeletedFalse`. */
  function FindAllByPersonIdAndDeletedFalse(rows: seq<Ledger>, personId: Option<int>): (r: seq<Ledger>)
    ensures forall x :: x in r <==> x in rows && LiveOfPerson(x, personId)
  {
    Select(rows, l => LiveOfPerson(l, personId))
  }

  /** The `ORDER BY l.ledgerId` of the query. */
  lemma FindAllIsOrdered(s: Store, personId: Option<int>)
    requires Wf(s)
    ensures AscendingIds(FindAllByPersonIdAndDeletedFalse(s.rows, personId))
  {
    SelectKeepsAscending(s.rows, l => LiveOfPerson(l, personId));
  }

  /** A soft-deleted row is invisible to all three queries. */
  lemma SoftDeletedInvisible(rows: seq<Ledger>, x: Ledger, id: Option<int>, personId: Option<int>, name: Option<string>)
    requires x.deleted
    ensures FindByIdAndDeletedFalse(rows, id) != Some(x)
    ensures x !in FindAllByPersonIdAndDeletedFalse(rows, personId)
    ensures FindByPersonIdAndNameAndDeletedFalse(rows, personId, name) != Ok(Some(x))
  {
  }

  /** The position of the row whose primary key is `id`. */
  function IndexOfId(rows: seq<Ledger>, id: int): (r: Option<nat>)
    ensures r.Some? ==> r.value < |rows| && rows[r.value].ledgerId == Some(id)
    ensures r.None? ==> forall i :: 0 <= i < |rows| ==> rows[i].ledgerId != Some(id)
  {
    if |rows| == 0 then None
    else if rows[0].ledgerId == Some(id) then Some(0)
    else match IndexOfId(rows[1..], id)
      case None => None
      case Some(k) => Some(k + 1)
  }

  /** Overwriting a row with a fitting ledger of the same id keeps the
      table well formed. */
  lemma OverwriteKeepsWf(s: Store, i: nat, l: Ledger)
    requires i < |s.rows| && s.rows[i].ledgerId == l.ledgerId && FitsColumns(l)
    ensures Wf(s) ==> Wf(s.(rows := s.rows[i := l]))
  {
  }

  /** Appending a fitting ledger under the next id keeps the table well
      formed. */
  lemma AppendKeepsWf(s: Store, l: Ledger)
    requires l.ledgerId == Some(s.nextId) && FitsColumns(l)
    ensures Wf(s) ==> Wf(Store(s.rows + [l], s.nextId + 1))
  {
    if Wf(s) {
      var rows := s.rows + [l];
      forall i, j | 0 <= i < j < |rows|
        ensures rows[i].ledgerId.value < rows[j].ledgerId.value
      {
        assert rows[i] == s.rows[i];
      }
    }
  }

  /** `save`: a ledger whose id names an existing row overwrites it (deleted
      or not); any other ledger is inserted under the sequence's next id. The
      row must fit the column constraints either way. */
  function Save(s: Store, l: Ledger): (r: Result<(Store, Ledger), DaoError>)
    ensures r.Err? <==> !FitsColumns(l)
    ensures r.Ok? ==> r.value.1 == l.(ledgerId := r.value.1.ledgerId) && r.value.1.ledgerId.Some?
    ensures r.Ok? ==> r.value.1 in r.value.0.rows
    ensures r.Ok? && l.ledgerId.Some? && (exists i :: 0 <= i < |s.rows| && s.rows[i].ledgerId == l.ledgerId) ==> r.value.1 == l && |r.value.0.rows| == |s.rows|
    ensures r.Ok? && Wf(s) ==> Wf(r.value.0)
    ensures r.Ok? ==> |s.rows| <= |r.value.0.rows|
    ensures r.Ok? ==> forall i :: 0 <= i < |s.rows| && s.rows[i].ledgerId != r.value.1.ledgerId ==>
      r.value.0.rows[i] == s.rows[i]
  {
    if !FitsColumns(l) then Err(DataIntegrityViolation)
    else
      var at := if l.ledgerId.Some? then IndexOfId(s.rows, l.ledgerId.value) else None;
      match at
      case Some(i) =>
        var s' := s.(rows := s.rows[i := l]);
        assert s'.rows[i] == l;
        OverwriteKeepsWf(s, i, l);
        Ok((s', l))
      case None =>
        var saved := l.(ledgerId := Some(s.nextId));
        var s' := Store(s.rows + [saved], s.nextId + 1);
        assert s'.rows[|s.rows|] == saved;
        AppendKeepsWf(s, saved);
        Ok((s', saved))
  }

  /** Under `Wf`, ids are unique, so a live row with the id is the one. */
  lemma LiveRowIsUnique(s: Store, i: nat, j: nat)
    requires Wf(s)
    requires i < |s.rows| && j < |s.rows|
    requires s.rows[i].ledgerId == s.rows[j].ledgerId
    ensures i == j
  {
  }

  /** What was saved is what a later lookup by its id finds, unless it was
      saved as deleted. */
  lemma SaveThenFind(s: Store, l: Ledger)
    requires Wf(s)
    requires Save(s, l).Ok?
    ensures var (s', saved) := Save(s, l).value;
      FindByIdAndDeletedFalse(s'.rows, saved.ledgerId) == (if saved.deleted then None else Some(saved))
  {
    var (s', saved) := Save(s, l).value;
    var k :| 0 <= k < |s'.rows| && s'.rows[k] == saved;
    var found := FindByIdAndDeletedFalse(s'.rows, saved.ledgerId);
    if found.Some? {
      var j :| 0 <= j < |s'.rows| && s'.rows[j] == found.value;
      LiveRowIsUnique(s', j, k);
    }
  }

  /** `save` leaves every other id's lookup as it was. */
  lemma SaveLeavesOtherIds(s: Store, l: Ledger, id: int)
    requires Wf(s)
    requires Save(s, l).Ok?
    requires Save(s, l).value.1.ledgerId != Some(id)
    ensures FindByIdAndDeletedFalse(Save(s, l).value.0.rows, Some(id)) == FindByIdAndDeletedFalse(s.rows, Some(id))
  {
    var keep := (x: Ledger) => LiveWithId(x, Some(id));
    var at := if l.ledgerId.Some? then IndexOfId(s.rows, l.ledgerId.value) else None;
    match at
    case Some(i) =>
      SelectIgnoresUnkeptUpdate(s.rows, i, l, keep);
    case None =>
      SelectAppend(s.rows, l.(ledgerId := Some(s.nextId)), keep);
      assert Select(s.rows, keep) + [] == Select(s.rows, keep);
  }
}

=== FILE: ledger_model.dfy ===
/** The `Ledger` entity: one row of the `ledger` table. Java's nullable
    references are `Option`s; the audit timestamps of the base entity are
    not modelled. */
module LedgerModel {
  import opened Wrappers

  const DefaultCurrency := "USD"
  const DefaultColor := "#000000"

  /** Declared `length` of the bounded varchar columns. */
  const NameColumnLength := 20
  const CurrencyColumnLength := 3
  const ColorColumnLength := 7

  datatype Ledger = Ledger(
    ledgerId: Option<int>,
    personId: Option<int>,
    name: Option<string>,
    description: Option<string>,
    currency: Option<string>,
    color: Option<string>,
    deleted: bool)

  /** The column constraints the database enforces on every written row:
      the non-null columns are present and the bounded ones fit. */
  predicate FitsColumns(l: Ledger) {
    && l.personId.Some?
    && l.name.Some? && |l.name.value| <= NameColumnLength
    && l.currency.Some? && |l.currency.value| <= CurrencyColumnLength
    && l.color.Some? && |l.color.value| <= ColorColumnLength
  }

  /** `new Ledger()`: only the field initialisers apply. */
  function NewLedger(): (l: Ledger)
    ensures l.ledgerId.None? && l.personId.None? && l.name.None? && l.description.None?
    ensures l.currency == Some(DefaultCurrency)
    ensures l.color == Some(DefaultColor)
    ensures !l.deleted
  {
    Ledger(None, None, None, None, Some(DefaultCurrency), Some(DefaultColor), false)
  }

  /** The defaults fit their columns: a fresh ledger given a person and a
      short enough name can be written as it is. */
  lemma DefaultsFitColumns(personId: int, name: string)
    requires |name| <= NameColumnLength
    ensures FitsColumns(NewLedger().(personId := Some(personId), name := Some(name)))
  {
  }
}

=== FILE: ledger_service.dfy ===
/** `LedgerServiceImpl`: lookups, validation, the duplicate-name rule and
    the save, update and soft-delete operations. Each operation returns the
    store after it; a thrown exception rolls the transaction back, so every
    error leaves the store as it was. */
module LedgerService {
  import opened Wrappers
  import opened JavaText
  import opened ApiErrors
  import opened LedgerModel
  import opened LedgerDao

  const LedgerNotFoundMessage := "Ledger not found."
  const NullLedgerMessage := "Ledger or personId cannot be null."
  const NullNameMessage := "Ledger name cannot be null."
  const NullCurrencyMessage := "Ledger currency cannot be null."
  const DuplicateNameMessage := "Ledger name already exists."

  datatype ServiceError =
    | Api(exception: ApiException)   // an ApiException the service throws
    | Dao(daoError: DaoError)        // an exception from the data layer
    | NullPointer                    // a method called on a null ledger

  /** `getLedgerById`. */
  function GetLedgerById(s: Store, id: Option<int>): (r: Result<Ledger, ApiException>)
    ensures r.Ok? <==> exists x :: x in s.rows && LiveWithId(x, id)
    ensures r.Ok? ==> r.value in s.rows && r.value.ledgerId == id && !r.value.deleted
    ensures r.Err? ==> r.error == WithStatus(NotFound, LedgerNotFoundMessage)
  {
    match FindByIdAndDeletedFalse(s.rows, id)
    case Some(l) => Ok(l)
    case None => Err(WithStatus(NotFound, LedgerNotFoundMessage))
  }

  /** `getAllLedgersByPersonId`. */
  function GetAllLedgersByPersonId(s: Store, personId: Option<int>): (r: seq<Ledger>)
    ensures forall x :: x in r <==> x in s.rows && personId.Some? && x.personId == personId && !x.deleted
  {
    FindAllByPersonIdAndDeletedFalse(s.rows, personId)
  }

  /** The fields `validateLedger` insists on. */
  predicate Complete(l: Option<Ledger>) {
    l.Some? && l.value.personId.Some? && l.value.name.Some? && l.value.currency.Some?
  }

  /** `validateLedger`: the first missing field, in the source's order, as
      BAD_REQUEST. */
  function ValidateLedger(l: Option<Ledger>): (r: Outcome<ApiException>)
    ensures r.Pass? <==> Complete(l)
    ensures r.Fail? ==> GetStatus(r.error) == Some(BadRequest)
    ensures l.None? || l.value.personId.None? ==> r == Fail(WithStatus(BadRequest, NullLedgerMessage))
    ensures l.Some? && l.value.personId.Some? && l.value.name.None? ==> r == Fail(WithStatus(BadRequest, NullNameMessage))
    ensures l.Some? && l.value.personId.Some? && l.value.name.Some? && l.value.currency.None? ==>
      r == Fail(WithStatus(BadRequest, NullCurrencyMessage))
  {
    if l.None? || l.value.personId.None? then Fail(WithStatus(BadRequest, NullLedgerMessage))
    else if l.value.name.None? then Fail(WithStatus(BadRequest, NullNameMessage))
    else if l.value.currency.None? then Fail(WithStatus(BadRequest, NullCurrencyMessage))
    else Pass
  }

  /** One stored ledger clashes with a candidate name: a different id, and
      its trimmed name equal to the untrimmed candidate ignoring case. A
      null candidate clashes with nothing. */
  predicate Clashes(x: Ledger, ledgerId: Option<int>, name: Option<string>) {
    && x.ledgerId != ledgerId
    && x.name.Some? && name.Some?
    && EqualsIgnoreCase(Trim(x.name.value), name.value)
  }

  function AnyClash(rows: seq<Ledger>, ledgerId: Option<int>, name: Option<string>): (r: bool)
    ensures r <==> exists x :: x in rows && Clashes(x, ledgerId, name)
  {
    if |rows| == 0 then false
    else Clashes(rows[0], ledgerId, name) || AnyClash(rows[1..], ledgerId, name)
  }

  /** `hasDuplicateLedgerName`: over the person's live ledgers. */
  function HasDuplicateLedgerName(s: Store, ledgerId: Option<int>, personId: Option<int>, name: Option<string>): (r: bool)
    ensures r <==> exists x :: x in s.rows && LiveOfPerson(x, personId) && Clashes(x, ledgerId, name)
  {
    AnyClash(GetAllLedgersByPersonId(s, personId), ledgerId, name)
  }

  /** `saveLedger`: validate, reject a duplicate name, then `save`. */
  function SaveLedger(s: Store, l: Option<Ledger>): (r: (Store, Result<Ledger, ServiceError>))
    ensures r.1.Ok? <==> Complete(l) && !HasDuplicateLedgerName(s, l.value.ledgerId, l.value.personId, l.value.name) && FitsColumns(l.value)
    ensures r.1.Err? ==> r.0 == s
    ensures !Complete(l) ==> r.1 == Err(Api(ValidateLedger(l).error))
    ensures Complete(l) && HasDuplicateLedgerName(s, l.value.ledgerId, l.value.personId, l.value.name)
      ==> r.1 == Err(Api(WithStatus(BadRequest, DuplicateNameMessage)))
    ensures r.1.Ok? ==> r.1.value in r.0.rows && r.1.value == l.value.(ledgerId := r.1.value.ledgerId)
    ensures Wf(s) ==> Wf(r.0)
  {
    match ValidateLedger(l)
    case Fail(e) => (s, Err(Api(e)))
    case Pass =>
      var m := l.value;
      if HasDuplicateLedgerName(s, m.ledgerId, m.personId, m.name) then
        (s, Err(Api(WithStatus(BadRequest, DuplicateNameMessage))))
      else
        match Save(s, m)
        case Err(e) => (s, Err(Dao(e)))
        case Ok((s', saved)) => (s', Ok(saved))
  }

  /** `updateLedger`: the ledger must exist and be live before it is
      validated; it is excluded from its own duplicate check; a null ledger
      fails on reading its id. */
  function UpdateLedger(s: Store, l: Option<Ledger>): (r: (Store, Result<Ledger, ServiceError>))
    ensures r.1.Err? ==> r.0 == s
    ensures l.None? ==> r.1 == Err(NullPointer)
    ensures l.Some? && GetLedgerById(s, l.value.ledgerId).Err? ==> r.1 == Err(Api(WithStatus(NotFound, LedgerNotFoundMessage)))
    ensures r.1.Ok? <==>
      && l.Some? && GetLedgerById(s, l.value.ledgerId).Ok? && Complete(l)
      && !HasDuplicateLedgerName(s, l.value.ledgerId, l.value.personId, l.value.name) && FitsColumns(l.value)
    ensures r.1.Ok? ==> r.1.value == l.value && l.value in r.0.rows
    ensures r.1.Ok? ==> |r.0.rows| == |s.rows|
    ensures Wf(s) ==> Wf(r.0)
  {
    if l.None? then (s, Err(NullPointer))
    else match GetLedgerById(s, l.value.ledgerId)
      case Err(e) => (s, Err(Api(e)))
      case Ok(_) => SaveLedger(s, l)
  }

  /** `deleteLedger`: mark the live ledger deleted and save it. */
  function DeleteLedger(s: Store, id: Option<int>): (r: (Store, Outcome<ServiceError>))
    ensures r.1.Fail? ==> r.0 == s
    ensures GetLedgerById(s, id).Err? ==> r.1 == Fail(Api(WithStatus(NotFound, LedgerNotFoundMessage)))
    ensures r.1.Pass? <==> GetLedgerById(s, id).Ok? && FitsColumns(GetLedgerById(s, id).value)
    ensures r.1.Pass? ==>
      && GetLedgerById(s, id).value.(deleted := true) in r.0.rows
      && |r.0.rows| == |s.rows|
      && forall i :: 0 <= i < |s.rows| && s.rows[i].ledgerId != id ==> r.0.rows[i] == s.rows[i]
    ensures Wf(s) ==> Wf(r.0)
  {
    match GetLedgerById(s, id)
    case Err(e) => (s, Fail(Api(e)))
    case Ok(l) =>
      match Save(s, l.(deleted := true))
      case Err(e) => (s, Fail(Dao(e)))
      case Ok((s', _)) => (s', Pass)
  }

  /** On a well-formed store, deleting a live ledger succeeds and the ledger
      is gone for every later lookup. */
  lemma DeleteThenGetNotFound(s: Store, id: Option<int>)
    requires Wf(s)
    requires GetLedgerById(s, id).Ok?
    ensures DeleteLedger(s, id).1 == Pass
    ensures GetLedgerById(DeleteLedger(s, id).0, id) == Err(WithStatus(NotFound, LedgerNotFoundMessage))
  {
    var l := GetLedgerById(s, id).value;
    var i :| 0 <= i < |s.rows| && s.rows[i] == l;
    assert FitsColumns(l);
    var gone := l.(deleted := true);
    assert IndexOfId(s.rows, id.value).Some?;
    SaveThenFind(s, gone);
  }

  /** On a well-formed store, a successful update of a live ledger is what
      every later lookup of its id finds. */
  lemma UpdateThenGet(s: Store, l: Ledger)
    requires Wf(s)
    requires UpdateLedger(s, Some(l)).1.Ok?
    requires !l.deleted
    ensures GetLedgerById(UpdateLedger(s, Some(l)).0, l.ledgerId) == Ok(l)
  {
    var x := GetLedgerById(s, l.ledgerId).value;
    assert x in s.rows && x.ledgerId == l.ledgerId;
    assert Save(s, l).Ok?;
    assert Save(s, l).value.1 == l;
    SaveThenFind(s, l);
  }

  /** A delete leaves the lookup of every other id as it was. */
  lemma DeleteLeavesOtherIds(s: Store, id: Option<int>, other: int)
    requires Wf(s)
    requires DeleteLedger(s, id).1.Pass?
    requires id != Some(other)
    ensures GetLedgerById(DeleteLedger(s, id).0, Some(other)) == GetLedgerById(s, Some(other))
  {
    var gone := GetLedgerById(s, id).value.(deleted := true);
    assert Save(s, gone).Ok?;
    SaveLeavesOtherIds(s, gone, other);
  }

  /** Validation does not look at the store: an incomplete ledger is refused
      the same way whatever is stored, and nothing is written. */
  lemma ValidationIgnoresStore(s1: Store, s2: Store, l: Option<Ledger>)
    requires !Complete(l)
    ensures SaveLedger(s1, l).1 == SaveLedger(s2, l).1
    ensures SaveLedger(s1, l).0 == s1 && SaveLedger(s2, l).0 == s2
  {
  }

  /** A live ledger of the same person, under another id, whose trimmed
      name equals the candidate ignoring case blocks the save, and nothing
      is written. */
  lemma DuplicateNameRejected(s: Store, l: Ledger, x: Ledger)
    requires Complete(Some(l))
    requires x in s.rows && LiveOfPerson(x, l.personId) && x.ledgerId != l.ledgerId
    requires x.name.Some? && EqualsIgnoreCase(Trim(x.name.value), l.name.value)
    ensures SaveLedger(s, Some(l)) == (s, Err(Api(WithStatus(BadRequest, DuplicateNameMessage))))
  {
    assert Clashes(x, l.ledgerId, l.name);
  }

  /** Only the stored name is trimmed: a candidate with a trailing space
      never clashes with the same name stored. */
  lemma CandidateIsNotTrimmed(x: Ledger, ledgerId: Option<int>, name: string)
    requires x.name == Some(name)
    ensures !Clashes(x, ledgerId, Some(name + " "))
  {
    assert |Trim(name)| <= |name|;
  }

  /** An update may keep its own name: the ledger's own row never counts
      as a duplicate of it. */
  lemma OwnRowNeverClashes(x: Ledger, name: Option<string>)
    ensures !Clashes(x, x.ledgerId, name)
  {
  }
}

=== FILE: lockout.dfy ===
/** The login-lockout ledger of `JsonAuthenticationFilter`: failure counts
    and lockout start instants per identity, with a 15-minute window after
    the fifth failure. Instants are integers in milliseconds. */
module Lockout {

  const MaxLoginAttempts: int := 5
  const LockoutDurationMinutes: int := 15
  const MillisPerMinute: int := 60000
  const LockoutDuration: int := LockoutDurationMinutes * MillisPerMinute

  /** The two maps `loginAttempts` and `lockoutTimes`. */
  datatype Table = Table(attempts: map<string, int>, lockedAt: map<string, int>)

  const EmptyTable := Table(map[], map[])

  /** `getOrDefault(id, 0)` on the failure counts. */
  function Count(t: Table, id: string): int {
    if id in t.attempts then t.attempts[id] else 0
  }

  /** The instant a lockout started at `start` ends. */
  function UnlockAt(start: int): int {
    start + LockoutDuration
  }

  /** Identities the ledger records: not empty and not the placeholder
      "unknown" used when no username could be read from the request. */
  predicate Tracked(id: string) {
    id != "" && id != "unknown"
  }

  /** The shape every reachable table has: only tracked identities, positive
      counts, and a lockout entry only beside a count of at least five. */
  predicate Wf(t: Table) {
    && (forall id :: id in t.attempts ==> Tracked(id) && t.attempts[id] >= 1)
    && (forall id :: id in t.lockedAt ==> id in t.attempts && t.attempts[id] >= MaxLoginAttempts)
  }

  /** `updateLoginAttempts`: a tracked identity's count goes up by one and
      the new count is returned; from the fifth failure on, every failure
      (re)starts the lockout at `now`. Other identities are ignored and
      yield 0. Nothing else in the table changes. */
  function RecordFailure(t: Table, id: string, now: int): (r: (Table, int))
    ensures !Tracked(id) ==> r == (t, 0)
    ensures Tracked(id) ==> r.1 == Count(t, id) + 1 && Count(r.0, id) == r.1
    ensures Tracked(id) && r.1 >= MaxLoginAttempts ==> id in r.0.lockedAt && r.0.lockedAt[id] == now
    ensures Tracked(id) && r.1 < MaxLoginAttempts ==> r.0.lockedAt == t.lockedAt
    ensures forall other :: other != id ==> Count(r.0, other) == Count(t, other)
    ensures forall other :: other != id ==>
      (other in r.0.lockedAt <==> other in t.lockedAt)
      && (other in t.lockedAt ==> r.0.lockedAt[other] == t.lockedAt[other])
    ensures r.0.attempts.Keys == t.attempts.Keys + (if Tracked(id) then {id} else {})
    ensures Wf(t) ==> Wf(r.0)
  {
    if Tracked(id) then
      var attempts := Count(t, id) + 1;
      var lockedAt := if attempts >= MaxLoginAttempts then t.lockedAt[id := now] else t.lockedAt;
      (Table(t.attempts[id := attempts], lockedAt), attempts)
    else
      (t, 0)
  }

  /** The success branch: both entries of the identity go, all others stay. */
  function ClearOnSuccess(t: Table, id: string): (r: Table)
    ensures id !in r.attempts && id !in r.lockedAt
    ensures forall other :: other != id ==> Count(r, other) == Count(t, other)
    ensures forall other :: other != id ==>
      (other in r.lockedAt <==> other in t.lockedAt)
      && (other in t.lockedAt ==> r.lockedAt[other] == t.lockedAt[other])
    ensures Wf(t) ==> Wf(r)
  {
    Table(t.attempts - {id}, t.lockedAt - {id})
  }

  /** `isAccountLocked` with its lazy expiry: locked while the unlock instant
      is strictly after now; at or past it the entry and the count are
      removed and the answer is false. Without an entry nothing changes. */
  function IsAccountLocked(t: Table, id: string, now: int): (r: (bool, Table))
    ensures r.0 <==> id in t.lockedAt && now < UnlockAt(t.lockedAt[id])
    ensures id !in t.lockedAt ==> r.1 == t
    ensures r.0 ==> r.1 == t
    ensures id in t.lockedAt && !r.0 ==> r.1 == ClearOnSuccess(t, id)
    ensures Wf(t) ==> Wf(r.1)
  {
    if id in t.lockedAt then
      if now < UnlockAt(t.lockedAt[id]) then (true, t)
      else (false, ClearOnSuccess(t, id))
    else
      (false, t)
  }

  /** The identities whose lockout ended strictly before now. */
  function Expired(t: Table, now: int): (s: set<string>)
    ensures forall id :: id in s <==> id in t.lockedAt && UnlockAt(t.lockedAt[id]) < now
  {
    set id | id in t.lockedAt && UnlockAt(t.lockedAt[id]) < now
  }

  /** `cleanExpiredLockouts`: drops the lockouts whose unlock instant is
      strictly before now, with their counts; every other lockout and every
      count without a lockout stays. */
  function Sweep(t: Table, now: int): (r: Table)
    ensures forall id :: id in r.lockedAt <==> id in t.lockedAt && now <= UnlockAt(t.lockedAt[id])
    ensures forall id :: id in r.lockedAt ==> r.lockedAt[id] == t.lockedAt[id]
    ensures forall id :: id in r.attempts <==>
      id in t.attempts && !(id in t.lockedAt && UnlockAt(t.lockedAt[id]) < now)
    ensures forall id :: id in r.attempts ==> r.attempts[id] == t.attempts[id]
    ensures Wf(t) ==> Wf(r)
  {
    var gone := Expired(t, now);
    Table(t.attempts - gone, t.lockedAt - gone)
  }

  /** A sweep is idempotent at a fixed instant. */
  lemma SweepIdempotent(t: Table, now: int)
    ensures Sweep(Sweep(t, now), now) == Sweep(t, now)
  {
    var s := Sweep(t, now);
    assert Expired(s, now) == {};
    assert s.attempts - {} == s.attempts;
    assert s.lockedAt - {} == s.lockedAt;
  }

  /** Failures of one identity at the given instants, in order; the result
      is the table and the count the last failure returned. */
  function FailAll(t: Table, id: string, times: seq<int>): (Table, int)
    decreases |times|
  {
    if |times| == 0 then (t, Count(t, id))
    else
      var step := RecordFailure(t, id, times[0]);
      FailAll(step.0, id, times[1..])
  }

  /** Consecutive failures from a clean slate: after n failures the count is
      n; there is a lockout exactly when n is at least five, and then it
      starts at the last failure. */
  lemma {:induction false} ConsecutiveFailures(t: Table, id: string, times: seq<int>)
    requires Tracked(id) && id !in t.lockedAt
    requires Count(t, id) < MaxLoginAttempts
    ensures FailAll(t, id, times).1 == Count(t, id) + |times|
    ensures Count(FailAll(t, id, times).0, id) == Count(t, id) + |times|
    ensures id in FailAll(t, id, times).0.lockedAt <==> Count(t, id) + |times| >= MaxLoginAttempts
    ensures Count(t, id) + |times| >= MaxLoginAttempts ==>
      FailAll(t, id, times).0.lockedAt[id] == times[|times| - 1]
    decreases |times|
  {
    if |times| > 0 {
      var step := RecordFailure(t, id, times[0]);
      if |times| == 1 {
        assert times[1..] == [];
      } else if Count(step.0, id) >= MaxLoginAttempts {
        ConsecutiveFromLocked(step.0, id, times[1..]);
      } else {
        ConsecutiveFailures(step.0, id, times[1..]);
      }
    }
  }

  /** Once locked, further failures keep counting and keep moving the
      lockout start to the latest failure. */
  lemma {:induction false} ConsecutiveFromLocked(t: Table, id: string, times: seq<int>)
    requires Tracked(id) && Count(t, id) >= MaxLoginAttempts - 1 && |times| > 0
    ensures FailAll(t, id, times).1 == Count(t, id) + |times|
    ensures Count(FailAll(t, id, times).0, id) == Count(t, id) + |times|
    ensures id in FailAll(t, id, times).0.lockedAt
    ensures FailAll(t, id, times).0.lockedAt[id] == times[|times| - 1]
    decreases |times|
  {
    var step := RecordFailure(t, id, times[0]);
    if |times| == 1 {
      assert times[1..] == [];
    } else {
      ConsecutiveFromLocked(step.0, id, times[1..]);
    }
  }

  /** Five failures inside the window lock the identity; four do not. */
  lemma FifthFailureLocks(t: Table, id: string, times: seq<int>, now: int)
    requires Tracked(id) && id !in t.attempts && id !in t.lockedAt
    requires |times| == MaxLoginAttempts || |times| == MaxLoginAttempts - 1
    requires |times| > 0 && times[|times| - 1] <= now < UnlockAt(times[|times| - 1])
    ensures IsAccountLocked(FailAll(t, id, times).0, id, now).0 <==> |times| == MaxLoginAttempts
  {
    ConsecutiveFailures(t, id, times);
  }

  /** Once the window has passed, the lockout check reports unlocked without
      any sweep, and the next failure counts from one again. */
  lemma ExpiryResetsCount(t: Table, id: string, now: int, later: int)
    requires Wf(t) && id in t.lockedAt && UnlockAt(t.lockedAt[id]) <= now
    ensures !IsAccountLocked(t, id, now).0
    ensures RecordFailure(IsAccountLocked(t, id, now).1, id, later).1 == 1
  {
  }

  /** A failure while locked raises the count past five and pushes the
      unlock instant to now plus the window: the window is restarted. */
  lemma FailureWhileLockedRestartsWindow(t: Table, id: string, now: int)
    requires Wf(t) && id in t.lockedAt && t.lockedAt[id] <= now
    ensures RecordFailure(t, id, now).1 == Count(t, id) + 1 > MaxLoginAttempts
    ensures UnlockAt(RecordFailure(t, id, now).0.lockedAt[id]) == now + LockoutDuration
    ensures UnlockAt(RecordFailure(t, id, now).0.lockedAt[id]) >= UnlockAt(t.lockedAt[id])
  {
  }

  /** A success clears the identity completely, whatever its history. */
  lemma SuccessResets(t: Table, id: string, now: int)
    ensures Count(ClearOnSuccess(t, id), id) == 0
    ensures !IsAccountLocked(ClearOnSuccess(t, id), id, now).0
  {
  }
}

=== FILE: login_filter.dfy ===
/** `JsonAuthenticationFilter`: the login endpoint's pipeline of pre-checks,
    the call to the authentication manager, and the bookkeeping of the
    success and failure handlers on the lockout ledger.

    The servlet superclass routes every `AuthenticationException` thrown by
    `attemptAuthentication` into `unsuccessfulAuthentication`; `Login` below
    writes that routing out. Any other exception (a `NullPointerException`)
    leaves the filter without a response body and without touching the
    ledger. */
module LoginFilter {
  import opened Wrappers
  import opened JavaText
  import opened StringUtil
  import opened Lockout
  import opened UserLookup
  import opened Jwt

  const JsonMediaType := "application/json"
  const UnknownUser := "unknown"
  const LoginSuccessMessage := "Login successful"

  /** Characters the username sanitiser keeps: `[a-zA-Z0-9@._-]`. */
  predicate AllowedInUsername(c: char) {
    IsAsciiLetterOrDigit(c) || c == '@' || c == '.' || c == '_' || c == '-'
  }

  predicate AllAllowed(s: string) {
    forall k :: 0 <= k < |s| ==> AllowedInUsername(s[k])
  }

  /** `replaceAll("[^a-zA-Z0-9@._-]", "")`: the allowed characters of `s`,
      in order. */
  function KeepAllowed(s: string): (r: string)
    ensures AllAllowed(r)
    ensures |r| <= |s|
  {
    if |s| == 0 then ""
    else if AllowedInUsername(s[0]) then [s[0]] + KeepAllowed(s[1..])
    else KeepAllowed(s[1..])
  }

  /** A string of allowed characters passes the filter unchanged. */
  lemma {:induction false} KeepAllowedFixesAllowed(s: string)
    requires AllAllowed(s)
    ensures KeepAllowed(s) == s
    decreases |s|
  {
    if |s| > 0 {
      assert AllowedInUsername(s[0]);
      KeepAllowedFixesAllowed(s[1..]);
      assert s == [s[0]] + s[1..];
    }
  }

  lemma {:induction false} KeepAllowedConcat(a: string, b: string)
    ensures KeepAllowed(a + b) == KeepAllowed(a) + KeepAllowed(b)
    decreases |a|
  {
    var ab := a + b;
    if |a| > 0 {
      assert ab[0] == a[0];
      assert ab[1..] == a[1..] + b;
      KeepAllowedConcat(a[1..], b);
      var head := if AllowedInUsername(a[0]) then [a[0]] else [];
      assert KeepAllowed(ab) == head + KeepAllowed(a[1..] + b);
      assert KeepAllowed(a) == head + KeepAllowed(a[1..]);
    } else {
      assert ab == b;
    }
  }

  lemma {:induction false} KeepAllowedDropsTrimmable(s: string)
    requires forall k :: 0 <= k < |s| ==> IsTrimmable(s[k])
    ensures KeepAllowed(s) == ""
    decreases |s|
  {
    if |s| > 0 {
      KeepAllowedDropsTrimmable(s[1..]);
    }
  }

  /** The login filter's username normalisation: trim, then delete every
      character outside `[a-zA-Z0-9@._-]`. */
  function Sanitize(s: string): (r: string)
    ensures AllAllowed(r)
  {
    KeepAllowed(Trim(s))
  }

  /** A trimmable suffix is dropped by the filter. */
  lemma KeepAllowedDropsBack(s: string, j: nat)
    requires j <= |s|
    requires forall k :: j <= k < |s| ==> IsTrimmable(s[k])
    ensures KeepAllowed(s) == KeepAllowed(s[..j])
  {
    var back := s[j..];
    forall k | 0 <= k < |back|
      ensures IsTrimmable(back[k])
    {
      assert back[k] == s[j + k];
    }
    KeepAllowedDropsTrimmable(back);
    assert s == s[..j] + back;
    KeepAllowedConcat(s[..j], back);
  }

  /** The filter ignores a trimmable prefix and suffix of `s`. */
  lemma {:induction false} KeepAllowedOfSlice(s: string, i: nat, j: nat)
    requires i <= j <= |s|
    requires forall k :: 0 <= k < i ==> IsTrimmable(s[k])
    requires forall k :: j <= k < |s| ==> IsTrimmable(s[k])
    ensures KeepAllowed(s) == KeepAllowed(s[i..j])
    decreases i
  {
    if i > 0 {
      var tail := s[1..];
      assert !AllowedInUsername(s[0]);
      assert KeepAllowed(s) == KeepAllowed(tail);
      assert tail[i - 1..j - 1] == s[i..j];
      KeepAllowedOfSlice(tail, i - 1, j - 1);
    } else {
      KeepAllowedDropsBack(s, j);
      assert s[i..j] == s[..j];
    }
  }

  lemma SanitizeIsKeepAllowed(s: string)
    ensures Sanitize(s) == KeepAllowed(s)
  {
    var i := Leading(s);
    var r := Trim(s);
    var j := i + |r|;
    assert r == s[i..j];
    KeepAllowedOfSlice(s, i, j);
    assert Sanitize(s) == KeepAllowed(r);
  }

  /** Sanitising is idempotent. */
  lemma SanitizeIdempotent(s: string)
    ensures Sanitize(Sanitize(s)) == Sanitize(s)
  {
    var r := Sanitize(s);
    SanitizeIsKeepAllowed(r);
    KeepAllowedFixesAllowed(r);
  }

  /** `validateContentType`: present and containing "application/json"
      after lower-casing. */
  predicate IsJsonContentType(contentType: Option<string>) {
    contentType.Some? && Contains(ToLower(contentType.value), JsonMediaType)
  }

  /** The request body as Jackson reads it into a `Map<String, String>`:
      unreadable, or the fields whose value is a non-null string. */
  datatype Body = Unparseable | Parsed(fields: map<string, string>)

  datatype LoginRequest = LoginRequest(contentType: Option<string>, body: Body)

  /** The message of each `AuthenticationException` reaching the failure
      handler; `AccountLocked` carries the unlock instant it prints. */
  datatype Rejection =
    | InvalidContentType
    | InvalidJson
    | CredentialsRequired
    | AccountLocked(unlockAt: int)
    | BadCredentials(message: string)

  const ContentTypeMessage := "Content-Type must be application/json"
  const InvalidJsonMessage := "Invalid JSON format"
  const CredentialsRequiredMessage := "Username and password are required"
  const LockedMessagePrefix := "Account temporarily locked due to 5 failed attempts. Try again after "

  /** The `getMessage()` of each rejection, the `error` text of the 401 body.
      `formatTime` renders an instant with the filter's date pattern. */
  function Message(reason: Rejection, formatTime: int -> string): (m: string)
    ensures reason == InvalidContentType ==> m == ContentTypeMessage
    ensures reason == InvalidJson ==> m == InvalidJsonMessage
    ensures reason == CredentialsRequired ==> m == CredentialsRequiredMessage
    ensures reason.AccountLocked? ==> m == LockedMessagePrefix + formatTime(reason.unlockAt)
    ensures reason.BadCredentials? ==> m == reason.message
  {
    match reason
    case InvalidContentType => ContentTypeMessage
    case InvalidJson => InvalidJsonMessage
    case CredentialsRequired => CredentialsRequiredMessage
    case AccountLocked(unlockAt) => LockedMessagePrefix + formatTime(unlockAt)
    case BadCredentials(message) => message
  }

  /** The three pre-check rejections are told apart by their text, and none
      reads like a lockout. */
  lemma PreCheckMessagesDistinct(formatTime: int -> string)
    ensures Message(InvalidContentType, formatTime) != Message(InvalidJson, formatTime)
    ensures Message(InvalidContentType, formatTime) != Message(CredentialsRequired, formatTime)
    ensures Message(InvalidJson, formatTime) != Message(CredentialsRequired, formatTime)
    ensures forall unlockAt :: Message(AccountLocked(unlockAt), formatTime) != Message(InvalidJson, formatTime)
  {
    forall unlockAt: int
      ensures Message(AccountLocked(unlockAt), formatTime) != Message(InvalidJson, formatTime)
    {
      var m := Message(AccountLocked(unlockAt), formatTime);
      assert m == LockedMessagePrefix + formatTime(unlockAt);
      assert |m| >= |LockedMessagePrefix| > |InvalidJsonMessage|;
    }
  }

  /** How `attemptAuthentication` ends before the authentication manager:
      hand sanitised credentials to it, throw an `AuthenticationException`,
      or hit a null field (`checkEmptyString` dereferences it). */
  datatype Verdict =
    | Verify(username: string, password: string)
    | Reject(reason: Rejection)
    | NullPointer

  /** The key under which the lockout check looks an identity up: the raw
      submitted name, as the filter does, or its sanitised form, under which
      failures are recorded. */
  datatype LockKey = RawName | SanitisedName

  function KeyOf(key: LockKey, raw: string): string {
    match key
    case RawName => raw
    case SanitisedName => Sanitize(raw)
  }

  /** `attemptAuthentication` up to the authentication manager: content
      type, then body, then blank fields, then sweep and lockout check. */
  function AttemptAuthentication(key: LockKey, t: Table, req: LoginRequest, now: int): (r: (Table, Verdict))
    ensures !IsJsonContentType(req.contentType) ==> r == (t, Reject(InvalidContentType))
    ensures IsJsonContentType(req.contentType) && req.body.Unparseable? ==> r == (t, Reject(InvalidJson))
    ensures r.1.Verify? ==>
      && IsJsonContentType(req.contentType) && req.body.Parsed?
      && "username" in req.body.fields && "password" in req.body.fields
      && !Blank(req.body.fields["username"]) && !Blank(req.body.fields["password"])
      && r.1.username == Sanitize(req.body.fields["username"])
      && r.1.password == req.body.fields["password"]
      && !IsAccountLocked(Sweep(t, now), KeyOf(key, req.body.fields["username"]), now).0
    ensures r.1.Reject? && r.1.reason.AccountLocked? ==>
      && req.body.Parsed? && "username" in req.body.fields
      && IsAccountLocked(Sweep(t, now), KeyOf(key, req.body.fields["username"]), now).0
    ensures r.1.NullPointer? ==> r.0 == t
    ensures Wf(t) ==> Wf(r.0)
  {
    if !IsJsonContentType(req.contentType) then (t, Reject(InvalidContentType))
    else match req.body
      case Unparseable => (t, Reject(InvalidJson))
      case Parsed(fields) =>
        if "username" !in fields then (t, NullPointer)
        else if Blank(fields["username"]) then (t, Reject(CredentialsRequired))
        else if "password" !in fields then (t, NullPointer)
        else if Blank(fields["password"]) then (t, Reject(CredentialsRequired))
        else
          var raw := fields["username"];
          var lockKey := KeyOf(key, raw);
          var swept := Sweep(t, now);
          var check := IsAccountLocked(swept, lockKey, now);
          if check.0 then (check.1, Reject(AccountLocked(UnlockAt(check.1.lockedAt[lockKey]))))
          else (check.1, Verify(Sanitize(raw), fields["password"]))
  }

  /** The per-thread copy of the parsed body: set only once the content type
      passed and the body parsed. */
  function RequestData(req: LoginRequest): Option<map<string, string>> {
    if IsJsonContentType(req.contentType) && req.body.Parsed? then Some(req.body.fields) else None
  }

  /** `extractUsernameFromRequest`: the sanitised username field, or
      "unknown" when there is no parsed body or no username in it. */
  function ExtractUsernameFromRequest(data: Option<map<string, string>>): (id: string)
    ensures data.None? || "username" !in data.value ==> id == UnknownUser
    ensures data.Some? && "username" in data.value ==> id == Sanitize(data.value["username"])
  {
    match data
    case None => UnknownUser
    case Some(m) => if "username" in m then Sanitize(m["username"]) else UnknownUser
  }

  /** What the authentication manager answers for sanitised credentials. */
  datatype AuthOutcome = Authenticated(principal: UserDetails) | AuthFailed(message: string)

  datatype FailureBody = FailureBody(
    success: bool,
    error: Rejection,
    timestamp: int,
    remainingAttempts: int,
    maxAttempts: int,
    currentAttempts: int,
    accountLocked: bool,
    unlockTime: Option<int>,
    lockoutDurationMinutes: Option<int>)

  datatype SuccessBody = SuccessBody(
    success: bool,
    message: string,
    timestamp: int,
    username: string,
    token: Token,
    roles: seq<string>)

  datatype LoginResponse =
    | Ok200(ok: SuccessBody)
    | Unauthorized401(failure: FailureBody)
    | Crashed

  /** `unsuccessfulAuthentication`: record the failure under the identity
      read from the request and report the counters. The lockout entry read
      at the threshold exists because the failure has just written it, so
      the reported unlock instant is always now plus the window. */
  function Unsuccessful(t: Table, data: Option<map<string, string>>, reason: Rejection, now: int): (r: (Table, LoginResponse))
    ensures var id := ExtractUsernameFromRequest(data);
      && r.0 == RecordFailure(t, id, now).0
      && r.1.Unauthorized401?
      && r.1.failure.currentAttempts == RecordFailure(t, id, now).1
    ensures var b := r.1.failure;
      && !b.success && b.error == reason && b.maxAttempts == MaxLoginAttempts
      && b.remainingAttempts == (if b.currentAttempts >= MaxLoginAttempts then 0 else MaxLoginAttempts - b.currentAttempts)
      && (b.accountLocked <==> b.currentAttempts >= MaxLoginAttempts)
      && (b.accountLocked ==>
            b.unlockTime == Some(now + LockoutDuration) && b.lockoutDurationMinutes == Some(LockoutDurationMinutes))
      && (!b.accountLocked ==> b.unlockTime.None? && b.lockoutDurationMinutes.None?)
  {
    var id := ExtractUsernameFromRequest(data);
    var step := RecordFailure(t, id, now);
    var current := step.1;
    var remaining := if MaxLoginAttempts - current > 0 then MaxLoginAttempts - current else 0;
    if current >= MaxLoginAttempts then
      var unlock := UnlockAt(step.0.lockedAt[id]);
      (step.0, Unauthorized401(FailureBody(false, reason, now, remaining, MaxLoginAttempts, current,
        true, Some(unlock), Some(LockoutDurationMinutes))))
    else
      (step.0, Unauthorized401(FailureBody(false, reason, now, remaining, MaxLoginAttempts, current,
        false, None, None)))
  }

  /** `successfulAuthentication`: an access token for the principal, and
      both ledger entries of the principal's stored username removed. */
  function Successful(cfg: Config, t: Table, principal: UserDetails, now: int): (r: (Table, LoginResponse))
    ensures r.0 == ClearOnSuccess(t, principal.username)
    ensures r.1.Ok200? && r.1.ok.success && r.1.ok.username == principal.username
    ensures r.1.ok.token == GenerateToken(cfg, principal, now) && r.1.ok.roles == principal.authorities
  {
    var token := GenerateToken(cfg, principal, now);
    (ClearOnSuccess(t, principal.username),
     Ok200(SuccessBody(true, LoginSuccessMessage, now, principal.username, token, principal.authorities)))
  }

  /** One login request end to end, with the lockout check keyed as `key`
      says. `verify` is the authentication manager. */
  function LoginWith(key: LockKey, cfg: Config, t: Table, req: LoginRequest, now: int, verify: (string, string) -> AuthOutcome): (r: (Table, LoginResponse))
    ensures Wf(t) ==> Wf(r.0)
  {
    var attempt := AttemptAuthentication(key, t, req, now);
    match attempt.1
    case NullPointer => (attempt.0, Crashed)
    case Reject(reason) => Unsuccessful(attempt.0, RequestData(req), reason, now)
    case Verify(username, password) =>
      match verify(username, password)
      case Authenticated(principal) => Successful(cfg, attempt.0, principal, now)
      case AuthFailed(message) => Unsuccessful(attempt.0, RequestData(req), BadCredentials(message), now)
  }

  /** The filter as written: the lockout check uses the raw username. */
  function Login(cfg: Config, t: Table, req: LoginRequest, now: int, verify: (string, string) -> AuthOutcome): (r: (Table, LoginResponse))
    ensures Wf(t) ==> Wf(r.0)
  {
    LoginWith(RawName, cfg, t, req, now, verify)
  }

  /** The filter with the lockout check keyed by the sanitised username,
      the key under which failures are recorded. */
  function LoginCorrected(cfg: Config, t: Table, req: LoginRequest, now: int, verify: (string, string) -> AuthOutcome): (r: (Table, LoginResponse))
    ensures Wf(t) ==> Wf(r.0)
  {
    LoginWith(SanitisedName, cfg, t, req, now, verify)
  }
}

=== FILE: login_properties.dfy ===
/** Properties of the login pipeline: the order of the pre-checks, the
    counters a rejection reports, the five-failure scenario, and the lockout
    key mismatch of the filter as written. */
module LoginProperties {
  import opened Wrappers
  import opened JavaText
  import opened StringUtil
  import opened Lockout
  import opened UserLookup
  import opened Jwt
  import opened LoginFilter

  /** A login request with the given content type and both fields. */
  function JsonLogin(contentType: string, name: string, password: string): LoginRequest {
    LoginRequest(Some(contentType), Parsed(map["username" := name, "password" := password]))
  }

  /** A username the sanitiser leaves alone and the ledger tracks. */
  predicate PlainName(name: string) {
    Tracked(name) && AllAllowed(name)
  }

  lemma JsonMediaTypeAccepted()
    ensures IsJsonContentType(Some(JsonMediaType))
  {
    var s := JsonMediaType;
    assert forall k :: 0 <= k < |s| ==> !IsAsciiUpper(s[k]);
    ToLowerFixesLower(s);
    ContainsItself(s);
  }

  lemma PlainNameFacts(name: string)
    requires PlainName(name)
    ensures Sanitize(name) == name && !Blank(name)
    ensures KeyOf(RawName, name) == name && KeyOf(SanitisedName, name) == name
  {
    SanitizeIsKeepAllowed(name);
    KeepAllowedFixesAllowed(name);
    assert !IsWhitespace(name[0]);
  }

  /** A content type without "application/json" is refused before the body
      is read; no identity is known, so the ledger does not change. */
  lemma ContentTypeCheckedFirst(key: LockKey, cfg: Config, t: Table, req: LoginRequest, now: int, verify: (string, string) -> AuthOutcome)
    requires !IsJsonContentType(req.contentType)
    ensures var r := LoginWith(key, cfg, t, req, now, verify);
      && r.0 == t
      && r.1 == Unauthorized401(FailureBody(false, InvalidContentType, now, MaxLoginAttempts, MaxLoginAttempts, 0, false, None, None))
  {
  }

  /** An unreadable JSON body is refused next, again without a ledger change. */
  lemma UnparseableBodyRejected(key: LockKey, cfg: Config, t: Table, contentType: string, now: int, verify: (string, string) -> AuthOutcome)
    requires IsJsonContentType(Some(contentType))
    ensures var r := LoginWith(key, cfg, t, LoginRequest(Some(contentType), Unparseable), now, verify);
      && r.0 == t
      && r.1 == Unauthorized401(FailureBody(false, InvalidJson, now, MaxLoginAttempts, MaxLoginAttempts, 0, false, None, None))
  {
  }

  /** A body without a username field makes `checkEmptyString` dereference
      null: no response from the filter and no ledger change. */
  lemma MissingUsernameCrashes(key: LockKey, cfg: Config, t: Table, fields: map<string, string>, now: int, verify: (string, string) -> AuthOutcome)
    requires "username" !in fields
    ensures LoginWith(key, cfg, t, LoginRequest(Some(JsonMediaType), Parsed(fields)), now, verify) == (t, Crashed)
  {
    JsonMediaTypeAccepted();
  }

  /** The authentication manager is consulted only after every pre-check has
      passed: when one fails, the outcome does not depend on it. */
  lemma PreChecksPrecedeVerification(key: LockKey, cfg: Config, t: Table, req: LoginRequest, now: int, v1: (string, string) -> AuthOutcome, v2: (string, string) -> AuthOutcome)
    requires !AttemptAuthentication(key, t, req, now).1.Verify?
    ensures LoginWith(key, cfg, t, req, now, v1) == LoginWith(key, cfg, t, req, now, v2)
  {
  }

  /** A blank password is a pre-check failure, yet the failure handler reads
      the username from the parsed body and counts it against that user. */
  lemma BlankPasswordCounts(ct: string, key: LockKey, cfg: Config, t: Table, name: string, password: string, now: int, verify: (string, string) -> AuthOutcome)
    requires IsJsonContentType(Some(ct))
    requires Wf(t) && PlainName(name) && Blank(password)
    ensures var r := LoginWith(key, cfg, t, JsonLogin(ct, name, password), now, verify);
      && Count(r.0, name) == Count(t, name) + 1
      && r.1.Unauthorized401? && r.1.failure.error == CredentialsRequired
  {
    PlainNameFacts(name);
    var req := JsonLogin(ct, name, password);
    assert AttemptAuthentication(key, t, req, now) == (t, Reject(CredentialsRequired));
    assert ExtractUsernameFromRequest(RequestData(req)) == name;
  }

  /** One wrong password for an identity that is not locked: the count goes
      up by one and the response reports it; the fifth locks. */
  lemma WrongPasswordStep(ct: string, key: LockKey, cfg: Config, t: Table, name: string, password: string, now: int, verify: (string, string) -> AuthOutcome)
    requires IsJsonContentType(Some(ct))
    requires Wf(t) && PlainName(name) && !Blank(password) && name !in t.lockedAt
    requires verify(name, password).AuthFailed?
    ensures var r := LoginWith(key, cfg, t, JsonLogin(ct, name, password), now, verify);
      var c := Count(t, name) + 1;
      && Count(r.0, name) == c
      && (name in r.0.lockedAt <==> c >= MaxLoginAttempts)
      && (c >= MaxLoginAttempts ==> r.0.lockedAt[name] == now)
      && r.1.Unauthorized401?
      && r.1.failure.error == BadCredentials(verify(name, password).message)
      && r.1.failure.currentAttempts == c
      && (r.1.failure.accountLocked <==> c >= MaxLoginAttempts)
      && r.1.failure.remainingAttempts == (if c >= MaxLoginAttempts then 0 else MaxLoginAttempts - c)
  {
    PlainNameFacts(name);
    var req := JsonLogin(ct, name, password);
    var swept := Sweep(t, now);
    assert Count(swept, name) == Count(t, name);
    assert name !in swept.lockedAt;
    assert IsAccountLocked(swept, name, now) == (false, swept);
    assert AttemptAuthentication(key, t, req, now) == (swept, Verify(name, password));
    assert ExtractUsernameFromRequest(RequestData(req)) == name;
    var step := RecordFailure(swept, name, now);
    assert step.0.lockedAt == swept.lockedAt || step.1 >= MaxLoginAttempts;
  }

  /** A request for a locked identity is refused whatever the password, and
      the refusal itself counts as a failure that restarts the window. */
  lemma LockedStep(ct: string, key: LockKey, cfg: Config, t: Table, name: string, password: string, now: int, verify: (string, string) -> AuthOutcome)
    requires IsJsonContentType(Some(ct))
    requires Wf(t) && PlainName(name) && !Blank(password)
    requires name in t.lockedAt && now < UnlockAt(t.lockedAt[name])
    ensures var r := LoginWith(key, cfg, t, JsonLogin(ct, name, password), now, verify);
      && r.1.Unauthorized401?
      && r.1.failure.error == AccountLocked(UnlockAt(t.lockedAt[name]))
      && r.1.failure.accountLocked && r.1.failure.remainingAttempts == 0
      && r.1.failure.currentAttempts == Count(t, name) + 1
      && Count(r.0, name) == Count(t, name) + 1
      && name in r.0.lockedAt && r.0.lockedAt[name] == now
  {
    PlainNameFacts(name);
    var req := JsonLogin(ct, name, password);
    var swept := Sweep(t, now);
    assert Count(swept, name) == Count(t, name);
    assert swept.lockedAt[name] == t.lockedAt[name];
    assert IsAccountLocked(swept, name, now) == (true, swept);
    var attempt := AttemptAuthentication(key, t, req, now);
    assert attempt == (swept, Reject(AccountLocked(UnlockAt(t.lockedAt[name]))));
    assert ExtractUsernameFromRequest(RequestData(req)) == name;
  }

  /** Five wrong passwords in a row lock the identity, the fifth response
      says so with no attempts left, and a sixth request inside the window
      is refused as locked even with the right password. */
  lemma FiveFailuresThenLocked(ct: string,
    key: LockKey, cfg: Config, t: Table, name: string, wrong: string, right: string,
    t1: int, t2: int, t3: int, t4: int, t5: int, t6: int, verify: (string, string) -> AuthOutcome)
    requires IsJsonContentType(Some(ct))
    requires Wf(t) && PlainName(name) && name !in t.attempts && name !in t.lockedAt
    requires !Blank(wrong) && !Blank(right)
    requires verify(name, wrong).AuthFailed? && verify(name, right).Authenticated?
    requires t6 < t5 + LockoutDuration
    ensures
      var s1 := LoginWith(key, cfg, t, JsonLogin(ct, name, wrong), t1, verify);
      var s2 := LoginWith(key, cfg, s1.0, JsonLogin(ct, name, wrong), t2, verify);
      var s3 := LoginWith(key, cfg, s2.0, JsonLogin(ct, name, wrong), t3, verify);
      var s4 := LoginWith(key, cfg, s3.0, JsonLogin(ct, name, wrong), t4, verify);
      var s5 := LoginWith(key, cfg, s4.0, JsonLogin(ct, name, wrong), t5, verify);
      var s6 := LoginWith(key, cfg, s5.0, JsonLogin(ct, name, right), t6, verify);
      && s4.1.Unauthorized401? && !s4.1.failure.accountLocked && s4.1.failure.remainingAttempts == 1
      && s5.1.Unauthorized401? && s5.1.failure.accountLocked && s5.1.failure.remainingAttempts == 0
      && s6.1.Unauthorized401? && s6.1.failure.error == AccountLocked(t5 + LockoutDuration)
  {
    var s1 := LoginWith(key, cfg, t, JsonLogin(ct, name, wrong), t1, verify);
    WrongPasswordStep(ct, key, cfg, t, name, wrong, t1, verify);
    var s2 := LoginWith(key, cfg, s1.0, JsonLogin(ct, name, wrong), t2, verify);
    WrongPasswordStep(ct, key, cfg, s1.0, name, wrong, t2, verify);
    var s3 := LoginWith(key, cfg, s2.0, JsonLogin(ct, name, wrong), t3, verify);
    WrongPasswordStep(ct, key, cfg, s2.0, name, wrong, t3, verify);
    var s4 := LoginWith(key, cfg, s3.0, JsonLogin(ct, name, wrong), t4, verify);
    WrongPasswordStep(ct, key, cfg, s3.0, name, wrong, t4, verify);
    var s5 := LoginWith(key, cfg, s4.0, JsonLogin(ct, name, wrong), t5, verify);
    WrongPasswordStep(ct, key, cfg, s4.0, name, wrong, t5, verify);
    LockedStep(ct, key, cfg, s5.0, name, right, t6, verify);
  }

  /** A name with a trailing space sanitises to the name itself. */
  lemma TrailingSpaceSanitisesAway(name: string)
    requires PlainName(name)
    ensures Sanitize(name + " ") == name
    ensures !Blank(name + " ")
    ensures name + " " != name
  {
    PlainNameFacts(name);
    var padded := name + " ";
    assert |padded| == |name| + 1;
    BlankConcat(name, " ");
    SanitizeIsKeepAllowed(padded);
    KeepAllowedConcat(name, " ");
    KeepAllowedFixesAllowed(name);
    KeepAllowedDropsTrimmable(" ");
  }

  /** The filter as written: failures are recorded under the sanitised name
      but the lockout check looks up the raw one, so while `name` is locked a
      request for `name + " "` still reaches the password check. A correct
      password logs in and a wrong one is reported as bad credentials, never
      as locked: guessing continues without limit. */
  lemma RawKeyBypassesLockout(ct: string, cfg: Config, t: Table, name: string, password: string, now: int, verify: (string, string) -> AuthOutcome)
    requires IsJsonContentType(Some(ct))
    requires Wf(t) && PlainName(name) && !Blank(password)
    requires name in t.lockedAt && now < UnlockAt(t.lockedAt[name])
    requires name + " " !in t.lockedAt
    ensures var r := Login(cfg, t, JsonLogin(ct, name + " ", password), now, verify);
      && (verify(name, password).Authenticated? ==> r.1.Ok200?)
      && (verify(name, password).AuthFailed? ==>
            r.1.Unauthorized401? && r.1.failure.error == BadCredentials(verify(name, password).message))
  {
    TrailingSpaceSanitisesAway(name);
    var req := JsonLogin(ct, name + " ", password);
    assert req.body.fields["username"] == name + " ";
    assert Sweep(t, now).lockedAt.Keys <= t.lockedAt.Keys;
  }

  /** With the check keyed by the sanitised name, every request whose name
      sanitises to a locked identity is refused as locked, whatever its
      password and whatever the authentication manager would say. */
  lemma SanitisedKeyEnforcesLockout(ct: string, cfg: Config, t: Table, raw: string, password: string, now: int, verify: (string, string) -> AuthOutcome)
    requires IsJsonContentType(Some(ct))
    requires Wf(t) && !Blank(raw) && !Blank(password)
    requires Sanitize(raw) in t.lockedAt && now < UnlockAt(t.lockedAt[Sanitize(raw)])
    ensures var r := LoginCorrected(cfg, t, JsonLogin(ct, raw, password), now, verify);
      && r.1.Unauthorized401?
      && r.1.failure.error == AccountLocked(UnlockAt(t.lockedAt[Sanitize(raw)]))
      && r.1.failure.accountLocked && r.1.failure.remainingAttempts == 0
  {
    var id := Sanitize(raw);
    var swept := Sweep(t, now);
    assert swept.lockedAt[id] == t.lockedAt[id];
    assert Count(swept, id) == Count(t, id);
    var req := JsonLogin(ct, raw, password);
    assert IsAccountLocked(swept, id, now) == (true, swept);
    var attempt := AttemptAuthentication(SanitisedName, t, req, now);
    assert attempt == (swept, Reject(AccountLocked(UnlockAt(t.lockedAt[id]))));
    assert ExtractUsernameFromRequest(RequestData(req)) == id;
  }
}

=== FILE: refresh_endpoint.dfy ===
/** `AuthController.refreshToken`: exchanges a refresh token for a new
    access token. */
module RefreshEndpoint {
  import opened Wrappers
  import opened JavaText
  import opened UserLookup
  import opened Jwt
  import RequestGate

  const InvalidFormatMessage := "Invalid token format"
  const InvalidRefreshMessage := "Invalid or expired refresh token"

  /** The endpoint's route; it is not one of the gate's public paths. */
  const RefreshPath := "/refresh-token"

  /** The three response bodies: `{error}` for a bad header,
      `{success:false, error, timestamp}` for a rejected token and
      `{success:true, token, timestamp}` for a new access token. */
  datatype RefreshBody =
    | FormatError(error: string)
    | Rejected(success: bool, error: string, timestamp: int)
    | Issued(success: bool, token: Token, timestamp: int)

  /** The endpoint either answers, or lets an exception escape to the
      framework: the parser's rejection of a forged or malformed token, or
      the lookup's `UsernameNotFoundException`. */
  datatype RefreshResult =
    | Respond(status: int, body: RefreshBody)
    | Throws(error: RefreshError)

  datatype RefreshError = TokenError(jwtError: JwtError) | LookupFailed(lookupError: LookupError)

  function RefreshToken(cfg: Config, header: Option<string>, decode: string -> Token, store: PersonStore, now: int): (r: RefreshResult)
    ensures RequestGate.BearerToken(header).None? ==> r == Respond(401, FormatError(InvalidFormatMessage))
    ensures r.Respond? && r.status == 200 <==> r.Respond? && r.body.Issued?
    ensures r.Respond? ==> r.status in {200, 401}
    ensures r.Respond? && r.body.Issued? ==>
      var token := decode(RequestGate.BearerToken(header).value);
      && IsRefreshToken(token) == Ok(true)
      && token.claims.subject.Some?
      && LoadUserByUsername(store, token.claims.subject).Ok?
      && ValidateToken(token, LoadUserByUsername(store, token.claims.subject).value, now) == Ok(true)
      && r.body == Issued(true, GenerateToken(cfg, LoadUserByUsername(store, token.claims.subject).value, now), now)
    ensures r.Respond? && r.body.Rejected? ==> r.body == Rejected(false, InvalidRefreshMessage, now) && r.status == 401
  {
    match RequestGate.BearerToken(header)
    case None => Respond(401, FormatError(InvalidFormatMessage))
    case Some(text) =>
      var token := decode(text);
      match IsRefreshToken(token)
      case Err(e) => Throws(TokenError(e))
      case Ok(false) => Respond(401, Rejected(false, InvalidRefreshMessage, now))
      case Ok(true) =>
        match ExtractUsername(token)
        // unreachable: isRefreshToken has just parsed the same token
        case Err(_) => Throws(TokenError(InvalidJwtToken))
        case Ok(username) =>
          match LoadUserByUsername(store, username)
          case Err(e) => Throws(LookupFailed(e))
          case Ok(user) =>
            match ValidateToken(token, user, now)
            case Err(e) => Throws(TokenError(e))
            case Ok(true) => Respond(200, Issued(true, GenerateToken(cfg, user, now), now))
            case Ok(false) => Respond(401, Rejected(false, InvalidRefreshMessage, now))
  }

  /** Round trip through the endpoint: a live refresh token of a stored user
      is exchanged for an access token of that user, which is not itself a
      refresh token and validates against the user until the access expiry. */
  lemma RefreshIssuesAccessToken(cfg: Config, jwt: string, decode: string -> Token, store: PersonStore, name: string, hash: string, issued: int, now: int, at: int)
    requires Trim(name) != "" && name in store && store[name] == StoredPerson(name, hash)
    requires decode(jwt) == GenerateRefreshToken(cfg, UserDetails(name, hash, UserAuthorities), issued)
    requires now <= issued + cfg.refreshLifetime
    ensures var r := RefreshToken(cfg, Some(RequestGate.BearerPrefix + jwt), decode, store, now);
      && r.Respond? && r.status == 200 && r.body.Issued?
      && r.body.token == GenerateToken(cfg, UserDetails(name, hash, UserAuthorities), now)
      && IsRefreshToken(r.body.token) == Ok(false)
      && ValidateToken(r.body.token, UserDetails(name, hash, UserAuthorities), at) == Ok(at <= now + cfg.accessLifetime)
  {
    assert Drop(RequestGate.BearerPrefix + jwt, |RequestGate.BearerPrefix|) == jwt;
    var user := UserDetails(name, hash, UserAuthorities);
    RefreshTokenValidity(cfg, user, issued, now);
    AccessTokenValidity(cfg, user, now, at);
  }

  /** An access token, however valid, is refused with the generic message. */
  lemma AccessTokenRefused(cfg: Config, jwt: string, decode: string -> Token, store: PersonStore, user: UserDetails, issued: int, now: int)
    requires decode(jwt) == GenerateToken(cfg, user, issued)
    ensures RefreshToken(cfg, Some(RequestGate.BearerPrefix + jwt), decode, store, now)
      == Respond(401, Rejected(false, InvalidRefreshMessage, now))
  {
    assert Drop(RequestGate.BearerPrefix + jwt, |RequestGate.BearerPrefix|) == jwt;
  }

  /** An expired refresh token, or one whose subject resolves to a different
      stored name, is refused with the generic message. */
  lemma StaleOrMismatchedRefreshRefused(cfg: Config, jwt: string, decode: string -> Token, store: PersonStore, user: UserDetails, issued: int, now: int)
    requires decode(jwt) == GenerateRefreshToken(cfg, user, issued)
    requires Trim(user.username) != "" && user.username in store
    requires now > issued + cfg.refreshLifetime || store[user.username].username != user.username
    ensures RefreshToken(cfg, Some(RequestGate.BearerPrefix + jwt), decode, store, now)
      == Respond(401, Rejected(false, InvalidRefreshMessage, now))
  {
    assert Drop(RequestGate.BearerPrefix + jwt, |RequestGate.BearerPrefix|) == jwt;
  }

  /** A forged or malformed bearer token is not answered with a 401 by the
      endpoint: `isRefreshToken` throws and the exception escapes. */
  lemma ForgedTokenEscapes(cfg: Config, jwt: string, decode: string -> Token, store: PersonStore, now: int)
    requires decode(jwt).integrity != Signed
    ensures RefreshToken(cfg, Some(RequestGate.BearerPrefix + jwt), decode, store, now)
      == Throws(TokenError(InvalidJwtToken))
  {
    assert Drop(RequestGate.BearerPrefix + jwt, |RequestGate.BearerPrefix|) == jwt;
  }

  lemma RefreshPathIsProtected()
    ensures !RequestGate.IsPublicPath(RefreshPath)
  {
    assert RefreshPath[1] == 'r';
    assert "/login"[1] == 'l';
    assert "/register"[3] == 'g' && RefreshPath[3] == 'f';
    assert "/public/"[1] == 'p';
  }

  /** In the filter chain the gate runs first, so a forged or malformed
      bearer token on the refresh route is answered 401 "Invalid JWT token"
      and the method above is never reached. */
  lemma GateStopsForgedRefresh(
    jwt: string, context: Option<UserDetails>, decode: string -> Token,
    lookup: string -> RequestGate.Lookup, now: int)
    requires decode(jwt).integrity != Signed
    ensures RequestGate.DoFilterInternal(RefreshPath, Some(RequestGate.BearerPrefix + jwt), context, decode, lookup, now)
      == RequestGate.SendErrorResponse(401, RequestGate.InvalidTokenMessage, now)
  {
    RefreshPathIsProtected();
    RequestGate.UnreadableTokenRejected(RefreshPath, jwt, context, decode, lookup, now);
  }

  /** Without a bearer header the gate hands the refresh request on with no
      authentication, which the chain's authorization rule then refuses. */
  lemma GatePassesHeaderlessRefresh(
    header: Option<string>, decode: string -> Token, lookup: string -> RequestGate.Lookup, now: int)
    requires RequestGate.BearerToken(header).None?
    ensures RequestGate.DoFilterInternal(RefreshPath, header, None, decode, lookup, now) == RequestGate.PassOn(None)
  {
    RefreshPathIsProtected();
  }
}

=== FILE: registration.dfy ===
/** The registration checks of `PersonServiceImpl`: username rules, password
    rules, password strength and the availability query. */
module Registration {
  import opened Wrappers
  import opened JavaText
  import opened StringUtil
  import opened ApiErrors
  import opened LoginFilter

  const MinUsernameLength := 3
  const MaxUsernameLength := 50
  const MinPasswordLength := 8
  const MaxPasswordLength := 128

  const UsernameEmptyMessage := "Username cannot be empty"
  const UsernameShortMessage := "Username must be at least 3 characters long"
  const UsernameLongMessage := "Username cannot be more than 50 characters long"
  const UsernameCharsMessage := "Username can only contain letters, numbers, dots, underscores, and hyphens"
  const PasswordEmptyMessage := "Password cannot be empty"
  const PasswordShortMessage := "Password must be at least 8 characters long"
  const PasswordLongMessage := "Password cannot be more than 128 characters long"
  const PasswordWeakMessage := "Password must contain at least one uppercase letter, one lowercase letter, one digit, and one special character"
  const UsernameTakenMessage := "A user with a similar username already exists"

  /** `[a-zA-Z0-9._-]`: note that '@' is not in it. */
  predicate UsernameChar(c: char) {
    IsAsciiLetterOrDigit(c) || c == '.' || c == '_' || c == '-'
  }

  /** `matches("^[a-zA-Z0-9._-]+$")`. */
  predicate MatchesUsernamePattern(s: string) {
    |s| > 0 && forall k :: 0 <= k < |s| ==> UsernameChar(s[k])
  }

  /** The username rules, all at once. */
  predicate AcceptableUsername(u: string) {
    && !Blank(u)
    && MinUsernameLength <= JavaLength(Trim(u)) <= MaxUsernameLength
    && MatchesUsernamePattern(Trim(u))
  }

  /** `validateUsername`, rule by rule in the source's order; only the first
      failing rule is reported, always as BAD_REQUEST. */
  function UsernameCheck(u: string): (r: Outcome<ApiException>)
    ensures r.Pass? <==> AcceptableUsername(u)
    ensures r.Fail? ==> GetStatus(r.error) == Some(BadRequest)
    ensures Blank(u) ==> r == Fail(WithStatus(BadRequest, UsernameEmptyMessage))
    ensures !Blank(u) && JavaLength(Trim(u)) < MinUsernameLength ==>
      r == Fail(WithStatus(BadRequest, UsernameShortMessage))
    ensures !Blank(u) && JavaLength(Trim(u)) > MaxUsernameLength ==>
      r == Fail(WithStatus(BadRequest, UsernameLongMessage))
    ensures (!Blank(u) && MinUsernameLength <= JavaLength(Trim(u)) <= MaxUsernameLength
      && !MatchesUsernamePattern(Trim(u))) ==> r == Fail(WithStatus(BadRequest, UsernameCharsMessage))
  {
    var t := Trim(u);
    if Blank(u) then Fail(WithStatus(BadRequest, UsernameEmptyMessage))
    else if JavaLength(t) < MinUsernameLength then Fail(WithStatus(BadRequest, UsernameShortMessage))
    else if JavaLength(t) > MaxUsernameLength then Fail(WithStatus(BadRequest, UsernameLongMessage))
    else if !MatchesUsernamePattern(t) then Fail(WithStatus(BadRequest, UsernameCharsMessage))
    else Pass
  }

  /** The executable check, using the blank-string scan. */
  method ValidateUsername(u: string) returns (r: Outcome<ApiException>)
    ensures r == UsernameCheck(u)
    ensures r.Pass? ==> MinUsernameLength <= JavaLength(Trim(u)) <= MaxUsernameLength
  {
    var empty := CheckEmptyString(u);
    if empty {
      return Fail(WithStatus(BadRequest, UsernameEmptyMessage));
    }
    var t := Trim(u);
    var length := JavaLength(t);
    if length < MinUsernameLength {
      return Fail(WithStatus(BadRequest, UsernameShortMessage));
    }
    if length > MaxUsernameLength {
      return Fail(WithStatus(BadRequest, UsernameLongMessage));
    }
    if !MatchesUsernamePattern(t) {
      return Fail(WithStatus(BadRequest, UsernameCharsMessage));
    }
    return Pass;
  }

  /** The line terminators Java's `.` does not match. */
  predicate IsLineTerminator(c: char) {
    c == '\n' || c == '\r' || c as int == 0x85 || c as int == 0x2028 || c as int == 0x2029
  }

  predicate IsSpecial(c: char) {
    c == '@' || c == '$' || c == '!' || c == '%' || c == '*' || c == '?' || c == '&'
  }

  /** `[A-Za-z\d@$!%*?&]`, the class of the first character. */
  predicate StrongFirstChar(c: char) {
    IsAsciiLetterOrDigit(c) || IsSpecial(c)
  }

  predicate HasLower(p: string) { exists k :: 0 <= k < |p| && IsAsciiLower(p[k]) }
  predicate HasUpper(p: string) { exists k :: 0 <= k < |p| && IsAsciiUpper(p[k]) }
  predicate HasDigit(p: string) { exists k :: 0 <= k < |p| && IsAsciiDigit(p[k]) }
  predicate HasSpecial(p: string) { exists k :: 0 <= k < |p| && IsSpecial(p[k]) }

  /** What `matches("^(?=.*[a-z])(?=.*[A-Z])(?=.*\\d)(?=.*[@$!%*?&])[A-Za-z\\d@$!%*?&].*$")`
      accepts: `matches` must consume the whole string and `.` stops at a
      line terminator, so there is none; the look-aheads then see the whole
      string. */
  predicate MatchesStrongPattern(p: string) {
    && |p| > 0
    && StrongFirstChar(p[0])
    && (forall k :: 0 <= k < |p| ==> !IsLineTerminator(p[k]))
    && HasLower(p) && HasUpper(p) && HasDigit(p) && HasSpecial(p)
  }

  /** `isPasswordStrong`, as one left-to-right scan. */
  method IsPasswordStrong(p: string) returns (strong: bool)
    ensures strong <==> MatchesStrongPattern(p)
  {
    if |p| == 0 || !StrongFirstChar(p[0]) {
      return false;
    }
    var lower, upper, digit, special := false, false, false, false;
    var i := 0;
    while i < |p|
      invariant 0 <= i <= |p|
      invariant forall k :: 0 <= k < i ==> !IsLineTerminator(p[k])
      invariant lower <==> exists k :: 0 <= k < i && IsAsciiLower(p[k])
      invariant upper <==> exists k :: 0 <= k < i && IsAsciiUpper(p[k])
      invariant digit <==> exists k :: 0 <= k < i && IsAsciiDigit(p[k])
      invariant special <==> exists k :: 0 <= k < i && IsSpecial(p[k])
    {
      var c := p[i];
      if IsLineTerminator(c) {
        return false;
      }
      lower := lower || IsAsciiLower(c);
      upper := upper || IsAsciiUpper(c);
      digit := digit || IsAsciiDigit(c);
      special := special || IsSpecial(c);
      i := i + 1;
    }
    return lower && upper && digit && special;
  }

  /** The password rules, all at once; lengths are of the untrimmed string. */
  predicate AcceptablePassword(p: string) {
    && !Blank(p)
    && MinPasswordLength <= JavaLength(p) <= MaxPasswordLength
    && MatchesStrongPattern(p)
  }

  /** `validatePassword`, rule by rule in the source's order. */
  function PasswordCheck(p: string): (r: Outcome<ApiException>)
    ensures r.Pass? <==> AcceptablePassword(p)
    ensures r.Fail? ==> GetStatus(r.error) == Some(BadRequest)
    ensures Blank(p) ==> r == Fail(WithStatus(BadRequest, PasswordEmptyMessage))
    ensures !Blank(p) && JavaLength(p) < MinPasswordLength ==>
      r == Fail(WithStatus(BadRequest, PasswordShortMessage))
    ensures !Blank(p) && JavaLength(p) > MaxPasswordLength ==>
      r == Fail(WithStatus(BadRequest, PasswordLongMessage))
    ensures (!Blank(p) && MinPasswordLength <= JavaLength(p) <= MaxPasswordLength
      && !MatchesStrongPattern(p)) ==> r == Fail(WithStatus(BadRequest, PasswordWeakMessage))
  {
    if Blank(p) then Fail(WithStatus(BadRequest, PasswordEmptyMessage))
    else if JavaLength(p) < MinPasswordLength then Fail(WithStatus(BadRequest, PasswordShortMessage))
    else if JavaLength(p) > MaxPasswordLength then Fail(WithStatus(BadRequest, PasswordLongMessage))
    else if !MatchesStrongPattern(p) then Fail(WithStatus(BadRequest, PasswordWeakMessage))
    else Pass
  }

  method ValidatePassword(p: string) returns (r: Outcome<ApiException>)
    ensures r == PasswordCheck(p)
  {
    var empty := CheckEmptyString(p);
    if empty {
      return Fail(WithStatus(BadRequest, PasswordEmptyMessage));
    }
    var length := JavaLength(p);
    if length < MinPasswordLength {
      return Fail(WithStatus(BadRequest, PasswordShortMessage));
    }
    if length > MaxPasswordLength {
      return Fail(WithStatus(BadRequest, PasswordLongMessage));
    }
    var strong := IsPasswordStrong(p);
    if !strong {
      return Fail(WithStatus(BadRequest, PasswordWeakMessage));
    }
    return Pass;
  }

  /** The two validators of `validateRegistrationInput`: the username is
      checked first, and the password only when the username passes. */
  method ValidateRegistrationInput(u: string, p: string) returns (r: Outcome<ApiException>)
    ensures UsernameCheck(u).Fail? ==> r == UsernameCheck(u)
    ensures UsernameCheck(u).Pass? ==> r == PasswordCheck(p)
    ensures r.Pass? <==> AcceptableUsername(u) && AcceptablePassword(p)
  {
    r := ValidateUsername(u);
    if r.Fail? {
      return r;
    }
    r := ValidatePassword(p);
  }

  /** `checkUsernameAvailability`: the query is the trimmed, lower-cased
      name; `existing` is the set of stored usernames `existsByUsername`
      matches exactly. */
  function CheckUsernameAvailability(u: string, existing: set<string>): (r: Outcome<ApiException>)
    ensures r.Fail? <==> ToLower(Trim(u)) in existing
    ensures r.Fail? ==> r.error == WithStatus(Conflict, UsernameTakenMessage)
  {
    if ToLower(Trim(u)) in existing then Fail(WithStatus(Conflict, UsernameTakenMessage)) else Pass
  }

  /** An accepted username never contains '@', which the login sanitiser
      would keep, and the sanitiser maps it to its trimmed form: what login
      looks up is the name the rules were checked on. */
  lemma AcceptedUsernameSanitisesToTrim(u: string)
    requires AcceptableUsername(u)
    ensures '@' !in Trim(u)
    ensures Sanitize(u) == Trim(u)
  {
    var t := Trim(u);
    forall k | 0 <= k < |t|
      ensures AllowedInUsername(t[k]) && t[k] != '@'
    {
      assert UsernameChar(t[k]);
    }
    KeepAllowedFixesAllowed(t);
  }

  /** Six characters, two of them outside the Basic Multilingual Plane. */
  const WidePassword := "Aa1@\U{1F600}\U{1F600}"

  lemma WidePasswordLength()
    ensures JavaLength(WidePassword) == 8
  {
    var p := WidePassword;
    var tail := p[4..];
    assert tail[1..][1..] == [];
    assert JavaLength(tail) == 4;
    assert p == "Aa1@" + tail;
    JavaLengthConcat("Aa1@", tail);
  }

  lemma WidePasswordStrong()
    ensures MatchesStrongPattern(WidePassword) && !Blank(WidePassword)
  {
    var p := WidePassword;
    assert IsAsciiLower(p[1]) && IsAsciiUpper(p[0]) && IsAsciiDigit(p[2]) && IsSpecial(p[3]);
    assert !IsWhitespace(p[0]);
  }

  /** Lengths are counted in UTF-16 units: the six-character password above
      is long enough. */
  lemma SupplementaryPasswordLongEnough()
    ensures PasswordCheck(WidePassword) == Pass
  {
    WidePasswordLength();
    WidePasswordStrong();
  }

  /** A two-character username with one supplementary character has length
      three, so it passes the length rules and fails on its characters. */
  lemma SupplementaryUsernameLongEnough()
    ensures UsernameCheck("a\U{1F600}") == Fail(WithStatus(BadRequest, UsernameCharsMessage))
  {
    var u := "a\U{1F600}";
    assert Leading(u) == 0 && Ending(u) == 2;
    assert Trim(u) == u;
    assert JavaLength(u) == 3 by { assert u[1..][1..] == []; }
    assert !IsWhitespace(u[0]);
    assert !UsernameChar(u[1]);
  }

  /** Usernames that differ only in letter case or surrounding control
      characters collide in the availability check. */
  lemma AvailabilityIgnoresCase(u: string, v: string, existing: set<string>)
    requires ToLower(Trim(u)) == ToLower(Trim(v))
    ensures CheckUsernameAvailability(u, existing) == CheckUsernameAvailability(v, existing)
  {
  }
}

=== FILE: request_gate.dfy ===
/** `JwtAuthenticationFilter.doFilterInternal`: the per-request gate in front
    of every protected route. */
module RequestGate {
  import opened Wrappers
  import opened JavaText
  import opened UserLookup
  import opened Jwt

  const BearerPrefix := "Bearer "

  const InvalidTokenMessage := "Invalid JWT token"
  const UserNotFoundMessage := "User not found"
  const InvalidOrExpiredMessage := "Invalid or expired JWT token"
  const AuthenticationErrorMessage := "Authentication error"

  /** What `loadUserByUsername` does for a name: return details, return
      null, or throw. */
  datatype Lookup = Found(details: UserDetails) | NullDetails | Threw

  /** The configured lookup: it throws where the service throws and never
      returns null. */
  function ServiceLookup(store: PersonStore): (lookup: string -> Lookup)
    ensures forall name :: lookup(name) != NullDetails
  {
    name => match LoadUserByUsername(store, Some(name))
      case Ok(d) => Found(d)
      case Err(_) => Threw
  }

  /** The body `sendErrorResponse` writes. */
  datatype ErrorBody = ErrorBody(success: bool, error: string, timestamp: int)

  /** The filter either hands the request on (with the security context it
      leaves behind) or writes one error response and stops. */
  datatype GateResult =
    | PassOn(context: Option<UserDetails>)
    | Reject(status: int, body: ErrorBody)

  /** `sendErrorResponse`. */
  function SendErrorResponse(status: int, message: string, now: int): (r: GateResult)
    ensures r.Reject? && r.status == status && !r.body.success
    ensures r.body.error == message && r.body.timestamp == now
  {
    Reject(status, ErrorBody(false, message, now))
  }

  predicate IsPublicPath(path: string) {
    StartsWith(path, "/login") || StartsWith(path, "/register") || StartsWith(path, "/public/")
  }

  /** The bearer text of an `Authorization` header, if it has the prefix. */
  function BearerToken(header: Option<string>): (r: Option<string>)
    ensures r.Some? <==> header.Some? && StartsWith(header.value, BearerPrefix)
    ensures r.Some? ==> header.value == BearerPrefix + r.value
  {
    if header.Some? && StartsWith(header.value, BearerPrefix) then
      Some(Drop(header.value, |BearerPrefix|))
    else
      None
  }

  /** The decision tree of the filter. `decode` is how the token parser sees
      a bearer text, `lookup` the user-details service, `context` the
      authentication already in the security context. */
  function DoFilterInternal(
    path: string, header: Option<string>, context: Option<UserDetails>,
    decode: string -> Token, lookup: string -> Lookup, now: int): (r: GateResult)
    ensures r.Reject? ==> r.status == 401 && !r.body.success && r.body.timestamp == now
    ensures r.Reject? ==>
      r.body.error in {InvalidTokenMessage, UserNotFoundMessage, InvalidOrExpiredMessage, AuthenticationErrorMessage}
    ensures IsPublicPath(path) ==> r == PassOn(context)
    ensures !IsPublicPath(path) && BearerToken(header).None? ==> r == PassOn(context)
    ensures !IsPublicPath(path) && BearerToken(header).Some? && context.None? ==>
      var tok := decode(BearerToken(header).value);
      (&& tok.integrity == Signed && tok.claims.subject.Some?
       && lookup(tok.claims.subject.value).Found?
       && ValidateToken(tok, lookup(tok.claims.subject.value).details, now) == Ok(true))
      ==> r == PassOn(Some(lookup(tok.claims.subject.value).details))
  {
    if IsPublicPath(path) then
      PassOn(context)
    else
      match BearerToken(header)
      case None => PassOn(context)
      case Some(jwt) =>
        var token := decode(jwt);
        match ExtractUsername(token)
        case Err(_) => SendErrorResponse(401, InvalidTokenMessage, now)
        case Ok(None) => SendErrorResponse(401, InvalidTokenMessage, now)
        case Ok(Some(username)) =>
          if context.Some? then
            PassOn(context)
          else
            match lookup(username)
            case Threw => SendErrorResponse(401, AuthenticationErrorMessage, now)
            case NullDetails => SendErrorResponse(401, UserNotFoundMessage, now)
            case Found(details) =>
              match ValidateToken(token, details, now)
              case Err(_) => SendErrorResponse(401, AuthenticationErrorMessage, now)
              case Ok(true) => PassOn(Some(details))
              case Ok(false) => SendErrorResponse(401, InvalidOrExpiredMessage, now)
  }

  /** A bearer token the parser rejects, or one with no subject, is answered
      with "Invalid JWT token" before the context or the lookup matter. */
  lemma UnreadableTokenRejected(
    path: string, jwt: string, context: Option<UserDetails>,
    decode: string -> Token, lookup: string -> Lookup, now: int)
    requires !IsPublicPath(path)
    requires decode(jwt).integrity != Signed || decode(jwt).claims.subject.None?
    ensures DoFilterInternal(path, Some(BearerPrefix + jwt), context, decode, lookup, now)
      == SendErrorResponse(401, InvalidTokenMessage, now)
  {
    assert Drop(BearerPrefix + jwt, |BearerPrefix|) == jwt;
  }

  /** A readable token whose subject the lookup throws on is answered with
      "Authentication error". */
  lemma LookupThrowIsAuthenticationError(
    path: string, jwt: string, decode: string -> Token, lookup: string -> Lookup, now: int)
    requires !IsPublicPath(path)
    requires decode(jwt).integrity == Signed && decode(jwt).claims.subject.Some?
    requires lookup(decode(jwt).claims.subject.value) == Threw
    ensures DoFilterInternal(path, Some(BearerPrefix + jwt), None, decode, lookup, now)
      == SendErrorResponse(401, AuthenticationErrorMessage, now)
  {
    assert Drop(BearerPrefix + jwt, |BearerPrefix|) == jwt;
  }

  /** A readable token that names another user than the details found, or
      that has expired, is answered with "Invalid or expired JWT token". */
  lemma FailedValidationIsInvalidOrExpired(
    path: string, jwt: string, decode: string -> Token, lookup: string -> Lookup, d: UserDetails, now: int)
    requires !IsPublicPath(path)
    requires decode(jwt).integrity == Signed && decode(jwt).claims.subject.Some?
    requires lookup(decode(jwt).claims.subject.value) == Found(d)
    requires decode(jwt).claims.subject != Some(d.username) || decode(jwt).claims.expiration < now
    ensures DoFilterInternal(path, Some(BearerPrefix + jwt), None, decode, lookup, now)
      == SendErrorResponse(401, InvalidOrExpiredMessage, now)
  {
    assert Drop(BearerPrefix + jwt, |BearerPrefix|) == jwt;
  }

  /** Each error message names exactly one cause. Validation itself never
      throws here: the token it sees was already read with a subject. */
  lemma RejectionNamesItsCause(
    path: string, header: Option<string>, context: Option<UserDetails>,
    decode: string -> Token, lookup: string -> Lookup, now: int)
    ensures var r := DoFilterInternal(path, header, context, decode, lookup, now);
      r.Reject? ==>
        && !IsPublicPath(path) && BearerToken(header).Some?
        && var tok := decode(BearerToken(header).value);
        var readable := tok.integrity == Signed && tok.claims.subject.Some?;
        && (r.body.error == InvalidTokenMessage <==> !readable)
        && (r.body.error == AuthenticationErrorMessage <==>
              readable && context.None? && lookup(tok.claims.subject.value).Threw?)
        && (r.body.error == UserNotFoundMessage <==>
              readable && context.None? && lookup(tok.claims.subject.value).NullDetails?)
        && (r.body.error == InvalidOrExpiredMessage <==>
              readable && context.None? && lookup(tok.claims.subject.value).Found?
              && (tok.claims.subject != Some(lookup(tok.claims.subject.value).details.username)
                  || tok.claims.expiration < now))
  {
  }

  /** An existing authentication short-circuits: no lookup, no validation. */
  lemma ContextShortCircuits(
    path: string, header: Option<string>, existing: UserDetails,
    decode: string -> Token, lookup1: string -> Lookup, lookup2: string -> Lookup, now: int)
    requires !IsPublicPath(path) && BearerToken(header).Some?
    requires ExtractUsername(decode(BearerToken(header).value)).Ok?
    requires ExtractUsername(decode(BearerToken(header).value)).value.Some?
    ensures DoFilterInternal(path, header, Some(existing), decode, lookup1, now) == PassOn(Some(existing))
    ensures DoFilterInternal(path, header, Some(existing), decode, lookup1, now)
      == DoFilterInternal(path, header, Some(existing), decode, lookup2, now)
  {
  }

  /** A principal is attached only for a token that validates against the
      details the lookup returned, and then it is exactly those details. */
  lemma PrincipalOnlyWhenValid(
    path: string, header: Option<string>,
    decode: string -> Token, lookup: string -> Lookup, now: int)
    requires DoFilterInternal(path, header, None, decode, lookup, now).PassOn?
    requires DoFilterInternal(path, header, None, decode, lookup, now).context.Some?
    ensures BearerToken(header).Some?
    ensures var token := decode(BearerToken(header).value);
      var d := DoFilterInternal(path, header, None, decode, lookup, now).context.value;
      && token.claims.subject.Some?
      && lookup(token.claims.subject.value) == Found(d)
      && ValidateToken(token, d, now) == Ok(true)
  {
  }

  /** The converse: with an empty context, a readable token whose subject
      loads and which validates against the details passes on with exactly
      those details attached. */
  lemma ValidTokenPassesGate(
    path: string, jwt: string, decode: string -> Token, lookup: string -> Lookup, d: UserDetails, now: int)
    requires !IsPublicPath(path)
    requires decode(jwt).integrity == Signed && decode(jwt).claims.subject.Some?
    requires lookup(decode(jwt).claims.subject.value) == Found(d)
    requires ValidateToken(decode(jwt), d, now) == Ok(true)
    ensures DoFilterInternal(path, Some(BearerPrefix + jwt), None, decode, lookup, now) == PassOn(Some(d))
  {
    assert Drop(BearerPrefix + jwt, |BearerPrefix|) == jwt;
  }

  /** With the configured lookup the "User not found" answer cannot occur:
      an unknown subject is reported as an authentication error. */
  lemma UserNotFoundUnreachable(
    path: string, header: Option<string>, context: Option<UserDetails>,
    decode: string -> Token, store: PersonStore, now: int)
    ensures var r := DoFilterInternal(path, header, context, decode, ServiceLookup(store), now);
      r.Reject? ==> r.body.error != UserNotFoundMessage
  {
  }

  /** A live access token for a stored user authenticates a protected
      request with that user's details. */
  lemma AccessTokenPassesGate(
    path: string, jwt: string, cfg: Config, user: UserDetails,
    decode: string -> Token, store: PersonStore, issued: int, now: int)
    requires !IsPublicPath(path)
    requires decode(jwt) == GenerateToken(cfg, UserDetails(user.username, user.password, UserAuthorities), issued)
    requires Trim(user.username) != ""
    requires user.username in store && store[user.username] == StoredPerson(user.username, user.password)
    requires now <= issued + cfg.accessLifetime
    ensures DoFilterInternal(path, Some(BearerPrefix + jwt), None, decode, ServiceLookup(store), now)
      == PassOn(Some(UserDetails(user.username, user.password, UserAuthorities)))
  {
    var d := UserDetails(user.username, user.password, UserAuthorities);
    assert ServiceLookup(store)(user.username) == Found(d);
    AccessTokenValidity(cfg, d, issued, now);
    ValidTokenPassesGate(path, jwt, decode, ServiceLookup(store), d, now);
  }

  /** Acceptance looks only at subject and expiry: a live refresh token for a
      stored user authenticates an ordinary request. */
  lemma RefreshTokenPassesGate(
    path: string, jwt: string, cfg: Config, user: UserDetails,
    decode: string -> Token, store: PersonStore, issued: int, now: int)
    requires !IsPublicPath(path)
    requires decode(jwt) == GenerateRefreshToken(cfg, UserDetails(user.username, user.password, UserAuthorities), issued)
    requires Trim(user.username) != ""
    requires user.username in store && store[user.username] == StoredPerson(user.username, user.password)
    requires now <= issued + cfg.refreshLifetime
    ensures DoFilterInternal(path, Some(BearerPrefix + jwt), None, decode, ServiceLookup(store), now)
      == PassOn(Some(UserDetails(user.username, user.password, UserAuthorities)))
  {
    assert Drop(BearerPrefix + jwt, |BearerPrefix|) == jwt;
    var d := UserDetails(user.username, user.password, UserAuthorities);
    assert ServiceLookup(store)(user.username) == Found(d);
    RefreshTokenValidity(cfg, d, issued, now);
  }
}

=== FILE: string_util.dfy ===
/** `StringUtil.checkEmptyString`: the blank-string test every validator in
    the core uses. */
module StringUtil {
  import opened JavaText

  /** Every character is whitespace in the sense of `Character.isWhitespace`
      (so the empty string is blank). */
  predicate Blank(s: string) {
    forall k :: 0 <= k < |s| ==> IsWhitespace(s[k])
  }

  /** The loop of the source: scan from the left and answer false at the
      first non-whitespace character. A null argument is not representable:
      the source dereferences it, so its callers must pass a string. */
  method CheckEmptyString(value: string) returns (empty: bool)
    ensures empty <==> Blank(value)
    ensures !empty ==> exists k :: 0 <= k < |value| && !IsWhitespace(value[k])
  {
    var i := 0;
    while i < |value|
      invariant 0 <= i <= |value|
      invariant forall k :: 0 <= k < i ==> IsWhitespace(value[k])
    {
      if !IsWhitespace(value[i]) {
        return false;
      }
      i := i + 1;
    }
    return true;
  }

  /** The index at which the scan stops: the first non-whitespace character,
      or the length when there is none. */
  function FirstNonWhitespace(s: string): (i: nat)
    ensures i <= |s|
    ensures forall k :: 0 <= k < i ==> IsWhitespace(s[k])
    ensures i < |s| ==> !IsWhitespace(s[i])
  {
    if |s| == 0 || !IsWhitespace(s[0]) then 0 else 1 + FirstNonWhitespace(s[1..])
  }

  lemma BlankIffScanCompletes(s: string)
    ensures Blank(s) <==> FirstNonWhitespace(s) == |s|
  {
  }

  /** A concatenation is blank exactly when both halves are. */
  lemma BlankConcat(a: string, b: string)
    ensures Blank(a + b) <==> Blank(a) && Blank(b)
  {
    if Blank(a + b) {
      forall k | 0 <= k < |a|
        ensures IsWhitespace(a[k])
      {
        assert a[k] == (a + b)[k];
      }
      forall k | 0 <= k < |b|
        ensures IsWhitespace(b[k])
      {
        assert b[k] == (a + b)[|a| + k];
      }
    }
    if Blank(a) && Blank(b) {
      forall k | 0 <= k < |a + b|
        ensures IsWhitespace((a + b)[k])
      {
        if k < |a| {
          assert (a + b)[k] == a[k];
        } else {
          assert (a + b)[k] == b[k - |a|];
        }
      }
    }
  }

  lemma EmptyIsBlank()
    ensures Blank("")
  {
  }
}

=== FILE: user_lookup.dfy ===
/** The `userDetailsService` bean of the security configuration: the lookup
    that turns a username into Spring `UserDetails`. */
module UserLookup {
  import opened Wrappers
  import opened JavaText

  /** A person row as `PersonDao.findByUsername` returns it. */
  datatype StoredPerson = StoredPerson(username: string, passwordHash: string)

  /** What `findByUsername` answers for each query string (absent = null).
      The query and the stored username may differ when the database
      collation matches loosely. */
  type PersonStore = map<string, StoredPerson>

  datatype UserDetails = UserDetails(username: string, password: string, authorities: seq<string>)

  /** `User.builder().roles("USER")` grants the single authority ROLE_USER. */
  const UserAuthorities: seq<string> := ["ROLE_USER"]

  datatype LookupError = UsernameNotFound(message: string)

  const EmptyUsernameMessage := "Username cannot be empty"

  /** The lookup lambda. It throws for a null name, a name that trims to
      nothing and an unknown name; it never returns null. */
  function LoadUserByUsername(store: PersonStore, username: Option<string>): (r: Result<UserDetails, LookupError>)
    ensures (username.None? || Trim(username.value) == "") ==> r == Err(UsernameNotFound(EmptyUsernameMessage))
    ensures username.Some? && Trim(username.value) != "" && username.value !in store ==>
      r == Err(UsernameNotFound("User not found: " + username.value))
    ensures r.Ok? <==> username.Some? && Trim(username.value) != "" && username.value in store
    ensures r.Ok? ==> (r.value.username == store[username.value].username
      && r.value.password == store[username.value].passwordHash
      && r.value.authorities == UserAuthorities)
  {
    if username.None? || Trim(username.value) == "" then
      Err(UsernameNotFound(EmptyUsernameMessage))
    else if username.value !in store then
      Err(UsernameNotFound("User not found: " + username.value))
    else
      var p := store[username.value];
      Ok(UserDetails(p.username, p.passwordHash, UserAuthorities))
  }

  /** Whatever is stored, every returned principal has only the USER role,
      and a lookup of a name made only of spaces and control characters fails. */
  lemma AlwaysUserRole(store: PersonStore, name: string)
    ensures LoadUserByUsername(store, Some(name)).Ok? ==>
      LoadUserByUsername(store, Some(name)).value.authorities == ["ROLE_USER"]
    ensures (forall k :: 0 <= k < |name| ==> IsTrimmable(name[k])) ==>
      LoadUserByUsername(store, Some(name)).Err?
  {
  }
}

=== FILE: wrappers.dfy ===
/** Failure-compatible wrappers used across the model: a Java reference that
    may be null becomes an `Option`, a call that may throw becomes a `Result`
    or an `Outcome`. */
module Wrappers {

  datatype Option<+T> = None | Some(value: T) {
    /** `value` when present, `default` otherwise. */
    function GetOr(default: T): T {
      match this
      case Some(v) => v
      case None => default
    }
  }

  /** The return value of a call, or the exception it throws. */
  datatype Result<+T, +E> = Ok(value: T) | Err(error: E)

  /** A check that either passes or throws. */
  datatype Outcome<+E> = Pass | Fail(error: E)
}
